=== FILE: README.md ===
# UtilityCollage helpers, modelled in Dafny

This project models three helper classes of the UtilityCollage library.

- **CmdHelper** runs Windows commands.
  - The model covers the launch specification built for a command: `cmd.exe /c <command>` when there are no parameters, the command itself otherwise.
  - The working directory is used only when it is given and exists.
  - Every overload is modelled. The three `int Cmd` overloads (`CmdHelper.cs:150`, `:164`, `:178`) return the exit code as it is. The three `CmdDefExitCode` overloads (`:28`, `:49`, `:71`) accept only exit code 0. The three `void Cmd(..., valorSalidaCorrecta, params valoresSalidaCorrecta)` overloads (`:92`, `:112`, `:133`) accept the required value or one of the extra values, and raise otherwise.
  - `SustituirTokensConVariablesDeEntorno` replaces `%NAME%` tokens by environment variables. An undefined name becomes `$NAME_INDEFINIDA$`.
- **FileHelper** handles paths.
  - `EsRutaRelativa` is the unanchored `[A-Za-z]+:\` test.
  - `CrearDirectorio` creates every cumulative folder `drive:\s1\`, `drive:\s1\s2\`, ... of a drive path.
  - `NormalizarRuta` expands `%...%` references with the greedy pattern `(?<=%).*(?=%)`. It raises `ArgumentException` for an undefined or empty variable and appends the directory separator on request.
- **TablaConsolaHelper** logs data tables.
  - A header, with an optional leading `ERROR` column.
  - At most nine rows, copied while a counter that starts at 1 is below 10. The console table refuses a row when it has no columns, and it cannot format a table without columns. So a table with no columns and no `ERROR` column raises, whether or not it has rows, and a data set stops at the first table that raises.
  - A "rows shown out of total" line and a rule of 56 `#`.
  - A data set is logged table by table, each preceded by `[namespace.name]`.

## How the model is built

**Outside world as parameters.** The child process, the file system and the environment are parameters of the model:
- the child's exit code is an integer argument;
- `Directory.Exists` is membership in a set of existing directories;
- `Directory.CreateDirectory` adds to that set;
- the environment is a map from names to values.

What `TablaConsolaHelper` logs is returned as a sequence of log lines, together with the exception it raises, if any.

**Regular expressions as predicates.** Each regular expression the helpers use is written as a predicate that says where it matches (`TokenAt`, `CandidateAt`, `DriveMarkerAt`, `IsDrivePath`). Each unanchored pattern is paired with a scanning function whose contract states the engine's choice: the leftmost match and, for `.*`, the longest one (`FindToken`, `GreedyMatch`, `HasDriveMarkerFrom`). The anchored `IsDrivePath` needs no scan; only its letter run is computed (`LetterRunEnd`). Ordinal `String.Replace`, `String.Split(char)` and `IndexOf(char)` are defined in the `Strings` module, with their own lemmas.

**Operations with loops.** The token-expansion loop, the path-normalisation loop, the folder loop of `CrearDirectorio`, the header and row loops of `ImprimirDataTable` and the table loop over a data set are methods with loop invariants. Each is proved equal to a specification function. The properties the helpers promise are proved about those functions:
- expansion leaves no token;
- a string without tokens comes back unchanged;
- expanding twice equals expanding once;
- every folder considered ends in `\`, starts with the drive and is a proper prefix of the next;
- a normalised `drive:\...\leaf\` path ends up among the folders created;
- the separator step is idempotent;
- the rows shown are the first nine, in order;
- a data set's log visits every table in order;
- a table raises exactly when it has no columns and no `ERROR` column, and a data set stops at the first such table;
- an undefined or empty variable makes `NormalizarRuta` raise for its name, whatever text surrounds the reference on its line.

**Behaviour kept as the code has it.**
- The exception raised for an unexpected exit code (`CmdHelper.cs:136-139`) carries a fixed message without the exit code, so the model's error value carries nothing either.
- The two expanders behave differently: `[A-Za-z0-9_()]+` with a lookup fallback in `CmdHelper`, and greedy `.*` with an exception in `FileHelper`. Both are modelled as written. Because of the greedy pattern, `%A%\%B%` looks up the single name `A%\%B` (`FileHelper.GreedyNameSpansEveryReference`).

## Model

| member | source | states |
|---|---|---|
| Strings.ReplaceAll | UtilityCollage/CmdHelper.cs:236 | defines ordinal `String.Replace` (also `FileHelper.cs:256`): scanning left to right, each occurrence that does not overlap one already replaced is replaced |
| Strings.ReplaceAllWithoutOccurrence | UtilityCollage/CmdHelper.cs:236 | `Replace` leaves a string in which the pattern never occurs unchanged |
| Strings.ReplaceAllAtFirstOccurrence | UtilityCollage/CmdHelper.cs:236 | `Replace` keeps the text before the first occurrence, puts the replacement there and goes on replacing after it |
| Strings.ReplaceAllCountNotAbove | UtilityCollage/FileHelper.cs:256 | replacing by a text with no more of a character than the pattern never adds that character |
| Strings.ReplaceAllCountBelow | UtilityCollage/FileHelper.cs:256 | when the pattern occurs and the replacement has fewer of a character, the count of that character strictly drops |
| Strings.Split | UtilityCollage/FileHelper.cs:73 | `Split('\\')` gives at least one piece, no piece holds the separator, and joining the pieces gives the input back |
| Strings.SplitJoin | UtilityCollage/FileHelper.cs:73 | splitting separator-free pieces joined by the separator gives the pieces back |
| Strings.IndexOf | UtilityCollage/FileHelper.cs:71-72 | `IndexOf(':')` is -1 exactly when there is no `:`, otherwise the first index holding it |
| Strings.TwoOccurrences | UtilityCollage/FileHelper.cs:247 | a string holds at least two `%` exactly when two distinct positions hold `%` |
| Strings.EndsWith | UtilityCollage/FileHelper.cs:260 | defines the separator test: the path is non-empty and its last character is the given one |
| CmdHelper.Launches | UtilityCollage/CmdHelper.cs:180-196 | defines the launch policy: `cmd.exe /c comando` iff there are no parameters, the working directory only when given and existing, output and error redirected, no shell, no window |
| CmdHelper.Accepted | UtilityCollage/CmdHelper.cs:136 | defines acceptance: the exit code equals the required value or is one of the extra values |
| CmdHelper.Cmd | UtilityCollage/CmdHelper.cs:178-218 | the launch follows the policy (interpreter mode iff no parameters; working directory only when given and existing; output and error redirected; no shell; no window) and the child's exit code is returned |
| CmdHelper.LaunchPolicyIsDeterministic | UtilityCollage/CmdHelper.cs:180-196 | the policy fixes every field of the launch: two launches that follow it for the same call are equal |
| CmdHelper.LaunchArgumentsNeverEmpty | UtilityCollage/CmdHelper.cs:180-184 | the child never gets an empty argument string, in either mode |
| CmdHelper.MissingDirectoryIsIgnored | UtilityCollage/CmdHelper.cs:193-196 | a working directory that does not exist launches exactly as no working directory |
| CmdHelper.CmdNoDirectory | UtilityCollage/CmdHelper.cs:150-153 | `Cmd(comando, parametros)` launches with no working directory and returns the exit code |
| CmdHelper.CmdLine | UtilityCollage/CmdHelper.cs:164-167 | `Cmd(comando)` launches `cmd.exe /c comando` and returns the exit code |
| CmdHelper.AcceptedWithoutExtras | UtilityCollage/CmdHelper.cs:136 | with no extra values only the required value is accepted; more extra values only widen what is accepted |
| CmdHelper.CmdValidated | UtilityCollage/CmdHelper.cs:133-140 | the call succeeds iff the exit code is the required value or one of the extra values; otherwise it raises the command-failed error |
| CmdHelper.CmdNoDirectoryValidated | UtilityCollage/CmdHelper.cs:112-115 | the same acceptance rule, launched without a working directory |
| CmdHelper.CmdLineValidated | UtilityCollage/CmdHelper.cs:92-95 | the same acceptance rule, in interpreter mode without a working directory |
| CmdHelper.CmdDefExitCodeIn | UtilityCollage/CmdHelper.cs:71-74 | succeeds iff the exit code is 0 |
| CmdHelper.CmdDefExitCodeNoDirectory | UtilityCollage/CmdHelper.cs:49-52 | succeeds iff the exit code is 0, with no working directory |
| CmdHelper.CmdDefExitCode | UtilityCollage/CmdHelper.cs:28-31 | succeeds iff the exit code is 0, in interpreter mode |
| CmdHelper.TokenAt | UtilityCollage/CmdHelper.cs:241 | defines where `%([A-Za-z0-9_()]+)%` matches: a `%`, one or more name characters, a `%` |
| CmdHelper.IsNameChar | UtilityCollage/CmdHelper.cs:241 | defines the character class `[A-Za-z0-9_()]` of a token name |
| CmdHelper.NameEnd | UtilityCollage/CmdHelper.cs:241 | the run of `[A-Za-z0-9_()]` characters from a position is maximal |
| CmdHelper.FindTokenFrom | UtilityCollage/CmdHelper.cs:241-242 | the scan from a position finds a `%name%` token there or later, and none is skipped before it |
| CmdHelper.FindToken | UtilityCollage/CmdHelper.cs:232-234 | `IsMatch` holds iff some `%name%` token exists; `Match` is the leftmost one |
| CmdHelper.NoPercentNoToken | UtilityCollage/CmdHelper.cs:232 | a string without `%` never matches |
| CmdHelper.Lookup | UtilityCollage/CmdHelper.cs:235 | defines the value substituted: the variable's value when defined, `$NAME_INDEFINIDA$` otherwise |
| CmdHelper.ExpandStep | UtilityCollage/CmdHelper.cs:234-236 | defines one pass: every `%NAME%` of the leftmost token's name replaced by its looked-up value |
| CmdHelper.LookupPercentFree | UtilityCollage/CmdHelper.cs:235 | the value substituted, including the `$NAME_INDEFINIDA$` fallback, holds no `%` when no variable value does |
| CmdHelper.ExpandStepLowersPercentCount | UtilityCollage/CmdHelper.cs:232-237 | each pass of the loop strictly lowers the number of `%`, so the loop ends |
| CmdHelper.ExpandStepReplacesLeftmostToken | UtilityCollage/CmdHelper.cs:234-236 | a pass keeps the text before the leftmost token, puts the value in its place and replaces `%NAME%` throughout the rest |
| CmdHelper.Expand | UtilityCollage/CmdHelper.cs:228-239 | the result holds no token and no more `%` than the input; a string without tokens is returned unchanged |
| CmdHelper.ExpandIdempotent | UtilityCollage/CmdHelper.cs:228-239 | expanding an expanded string changes nothing |
| CmdHelper.ExpandExample | UtilityCollage/CmdHelper.cs:236 | `%X%B%X%` with `X=val` becomes `valBval`: both references are replaced in one pass |
| CmdHelper.SustituirTokensConVariablesDeEntorno | UtilityCollage/CmdHelper.cs:228-239 | the loop returns the expansion: no token is left, and a string without tokens comes back unchanged |
| FileHelper.IsAsciiLetter | UtilityCollage/FileHelper.cs:27 | defines the class `[A-Za-z]`, here and in the pattern at line 67: exactly the 52 ASCII letters |
| FileHelper.HasDriveMarkerFrom | UtilityCollage/FileHelper.cs:27-28 | the unanchored scan finds `letter:\` at some position from the start position on iff one exists |
| FileHelper.DriveMarkerAt | UtilityCollage/FileHelper.cs:27 | defines where `[A-Za-z]+:\\` can end its letters: a letter, then `:`, then `\` |
| FileHelper.EsRutaRelativa | UtilityCollage/FileHelper.cs:25-29 | a path is relative iff no `[A-Za-z]:\` occurs anywhere in it |
| FileHelper.EsRutaRelativaExamples | UtilityCollageTests/FileHelperTest.cs:8-12 | `../` is relative and `c:\Windows` is not |
| FileHelper.IsDrivePath | UtilityCollage/FileHelper.cs:67 | defines the anchored `^[A-Za-z]+(:){1}(\\){1,2}.*$`: letters, `:`, `\` (a second `\` is taken by `.*`), then one line with an optional final newline |
| FileHelper.NewlineOnlyAtEnd | UtilityCollage/FileHelper.cs:67 | defines what `.*$` accepts: no line feed except possibly the last character |
| FileHelper.LetterRunEnd | UtilityCollage/FileHelper.cs:67 | `^[A-Za-z]+` consumes the maximal run of ASCII letters |
| FileHelper.DriveColon | UtilityCollage/FileHelper.cs:67-72 | in a drive path the first `:` is the one right after the drive letters |
| FileHelper.DirectoriesFor | UtilityCollage/FileHelper.cs:65-86 | defines the folders a path calls for: none for an empty or non-drive path, otherwise the cumulative folders of its non-empty segments after the drive root |
| FileHelper.Drive | UtilityCollage/FileHelper.cs:71 | defines `unidad`: the path up to and including its first `:` |
| FileHelper.Carpetas | UtilityCollage/FileHelper.cs:72-73 | defines `carpetas`: the rest of the path after its first `:`, split at every `\` |
| FileHelper.Accumulated | UtilityCollage/FileHelper.cs:74-81 | defines `folders` after a prefix of the segments: the root followed by each non-empty segment and `\` |
| FileHelper.Considered | UtilityCollage/FileHelper.cs:75-86 | defines the folders checked and created, in order: `folders` after each non-empty segment |
| FileHelper.CrearDirectorio | UtilityCollage/FileHelper.cs:65-87 | the existing folders afterwards are those before plus every folder the path calls for; an empty or non-drive path changes nothing |
| FileHelper.NonEmpty | UtilityCollage/FileHelper.cs:77-80 | the segments visited are exactly the non-empty segments of the path, in order |
| FileHelper.AccumulatedIsTrailing | UtilityCollage/FileHelper.cs:74-81 | `folders` after any prefix of the segments is the drive root followed by each non-empty segment and `\` |
| FileHelper.ConsideredAreCumulative | UtilityCollage/FileHelper.cs:75-86 | one folder is considered per non-empty segment, and the j-th is the root followed by the first j+1 non-empty segments |
| FileHelper.ConsideredFormAChain | UtilityCollage/FileHelper.cs:75-86 | every folder considered ends in `\` and starts with the root, and each is a proper prefix of the next (parents first) |
| FileHelper.TrailingHasNoDoubleSeparator | UtilityCollage/FileHelper.cs:77-81 | joining non-empty, separator-free segments never produces `\\` |
| FileHelper.PrefixedHasNoDoubleSeparator | UtilityCollage/FileHelper.cs:74-81 | a drive followed by such segments holds no `\\` after the drive |
| FileHelper.NoDoubleSeparatorAfterDrive | UtilityCollage/FileHelper.cs:75-81 | since empty segments are skipped, no folder considered holds `\\` after the drive, even when the path does |
| FileHelper.DrivePathOf | UtilityCollage/FileHelper.cs:67-73 | `letters:\tail` passes the anchored pattern, its drive is `letters:` and its pieces are those of `\tail` |
| FileHelper.SplitTrailing | UtilityCollage/FileHelper.cs:73 | splitting `\s1\...\sk\` gives an empty piece, the segments and an empty piece |
| FileHelper.ConsideredAround | UtilityCollage/FileHelper.cs:75-86 | visiting an empty piece, the segments and an empty piece considers one folder per segment, the last being the whole path |
| FileHelper.CrearDirectorioCreatesThePath | UtilityCollage/FileHelper.cs:65-87 | for `letters:\s1\...\sk\` the folders considered are one per segment and the last is the path itself |
| FileHelper.CandidateAt | UtilityCollage/FileHelper.cs:247 | defines where `(?<=%).*(?=%)` can match: after a `%`, up to a `%`, with no newline in between |
| FileHelper.ReachableAt | UtilityCollage/FileHelper.cs:247 | defines where `.*(?=%)` can stop: at a `%`, with no line feed on the way |
| FileHelper.LastReachable | UtilityCollage/FileHelper.cs:247 | greedy `.*(?=%)` stops at the last `%` reachable without crossing a newline |
| FileHelper.GreedyMatchFrom | UtilityCollage/FileHelper.cs:247-250 | the scan from a position finds the first start with a match and, from there, the longest match |
| FileHelper.GreedyMatch | UtilityCollage/FileHelper.cs:247-250 | `IsMatch` holds iff the pattern can match; `Match` is leftmost, then longest |
| FileHelper.GreedyMatchOnOneLine | UtilityCollage/FileHelper.cs:247-250 | on one line there is a match iff there are two `%`; it runs from after the first `%` to the last `%` |
| FileHelper.GreedyMatchBetween | UtilityCollage/FileHelper.cs:247-250 | on one line whose first `%` is at f and last at l, the match is exactly between them |
| FileHelper.NoCandidateOnOneLine | UtilityCollage/FileHelper.cs:248 | a single line on which the pattern no longer matches holds fewer than two `%` |
| FileHelper.NoPercentNoCandidate | UtilityCollage/FileHelper.cs:248 | a path without `%` never matches |
| FileHelper.GreedyStepLowersPercentCount | UtilityCollage/FileHelper.cs:248-257 | each pass strictly lowers the number of `%`, so the loop ends |
| FileHelper.ExpandGreedy | UtilityCollage/FileHelper.cs:246-257 | on success nothing matches any more and no `%` was added; a failure names an undefined or empty variable, and when the matched name is undefined or empty the call raises for it; a path that does not match is returned as is |
| FileHelper.GreedyFailsOnUndefined | UtilityCollage/FileHelper.cs:248-255 | on one line, whatever surrounds the reference, an undefined or empty name between the first and the last `%` raises for that name |
| FileHelper.GreedyStepReplacesReference | UtilityCollage/FileHelper.cs:248-256 | on one line, a defined name between the first and the last `%` is replaced by its value, keeping the text on either side, and the loop goes on from there |
| FileHelper.ExpandedOneLineHasFewerThanTwoPercents | UtilityCollage/FileHelper.cs:248 | a successful expansion that ends on one line holds fewer than two `%` |
| FileHelper.SingleReference | UtilityCollage/FileHelper.cs:248-257 | `%name%rest`, with no `%` in the rest, expands to the value followed by the rest |
| FileHelper.GreedyNameSpansEveryReference | UtilityCollage/FileHelper.cs:247-254 | in `%name%` the whole of `name` is looked up whatever `%` it holds, and the call raises when that name is undefined or empty |
| FileHelper.WithSeparator | UtilityCollage/FileHelper.cs:260 | the result ends with the separator, extends the input by at most that one character, and is the input itself when it already ended with it |
| FileHelper.WithSeparatorIdempotent | UtilityCollage/FileHelper.cs:260 | adding the separator twice is the same as once |
| FileHelper.Normalize | UtilityCollage/FileHelper.cs:238-261 | an empty path is returned as is; on success with the flag set the result ends with the separator; a failure names an undefined or empty variable |
| FileHelper.NormalizeFailsOnUndefined | UtilityCollage/FileHelper.cs:238-255 | a non-empty one-line path whose reference names an undefined or empty variable raises for that name, with or without the separator |
| FileHelper.SeparatorIsTheOnlyDifference | UtilityCollage/FileHelper.cs:238-261 | with and without the flag the call fails alike; on success the flagged result is the unflagged one with the separator step applied |
| FileHelper.NormalizeSingleReference | UtilityCollage/FileHelper.cs:238-261 | `%name%rest` normalises to the value and the rest, followed by a separator on request |
| FileHelper.NormalizarRuta | UtilityCollage/FileHelper.cs:238-261 | the loop returns or raises exactly what the normalisation defines |
| FileHelper.NormalizarRutaConSeparador | UtilityCollage/FileHelper.cs:263-266 | the one-argument overload always appends the separator |
| FileHelper.TestPathNormalized | UtilityCollageTests/FileHelperTest.cs:18 | `%name%\leaf` normalises to the value, `\leaf` and a final separator |
| FileHelper.TestPathCreated | UtilityCollageTests/FileHelperTest.cs:19-20 | `letters:\d1\...\last\leaf\` is among the folders `CrearDirectorio` makes exist for it |
| FileHelper.NormalizedPathIsCreated | UtilityCollageTests/FileHelperTest.cs:15-23 | normalising `%TMP%\leaf`, with `TMP` a drive path, and then creating it leaves that very folder existing |
| TablaConsolaHelper.ConsoleTable.constructor | UtilityCollage/TablaConsolaHelper.cs:47 | a new console table has the given header and no rows |
| TablaConsolaHelper.ConsoleTable.AddRow | UtilityCollage/TablaConsolaHelper.cs:61 | the header is unchanged; with no columns the row is refused, with a different width it is refused, otherwise it is appended at the end |
| TablaConsolaHelper.ConsoleTable.ToMinimalString | UtilityCollage/TablaConsolaHelper.cs:64 | formatting raises exactly when the table has no columns |
| TablaConsolaHelper.Header | UtilityCollage/TablaConsolaHelper.cs:38-46 | defines the header: `ERROR` first when row errors are included, then the column names in order |
| TablaConsolaHelper.RowValues | UtilityCollage/TablaConsolaHelper.cs:55-60 | defines a row's cells: its error first when row errors are included, then its items |
| TablaConsolaHelper.ShownRows | UtilityCollage/TablaConsolaHelper.cs:48-63 | defines the rows copied: the cells of the first min(9, rows) rows |
| TablaConsolaHelper.TableLog | UtilityCollage/TablaConsolaHelper.cs:47-66 | defines what a table prints: with an empty header, the refusal of the first row, or the formatting error when there is no row; otherwise the rendered table, the rows-shown line and the rule |
| TablaConsolaHelper.TableLogFailsOnlyWithoutColumns | UtilityCollage/TablaConsolaHelper.cs:38-64 | a table raises exactly when it has no columns and row errors are not included; the error is the refused row when there are rows, the formatting error otherwise |
| TablaConsolaHelper.ShownRowsAreTheFirstNine | UtilityCollage/TablaConsolaHelper.cs:48-63 | the count shown is min(9, rows), never more than the rows there are, and the rows shown are the first ones in order |
| TablaConsolaHelper.RowErrorIsALeadingColumn | UtilityCollage/TablaConsolaHelper.cs:38-61 | including row errors adds exactly one leading `ERROR` header cell and one leading error cell to every row shown |
| TablaConsolaHelper.ImprimirDataTable | UtilityCollage/TablaConsolaHelper.cs:36-67 | the loop logs exactly what the table prints: the rendered table (header and first nine rows), the rows-shown line and the rule, or the refusal of the first row, or the formatting error of a table without columns |
| TablaConsolaHelper.ImprimirDataTableSinErrores | UtilityCollage/TablaConsolaHelper.cs:31-34 | the one-argument overload logs without row errors |
| TablaConsolaHelper.DataSetLog | UtilityCollage/TablaConsolaHelper.cs:13-28 | defines what printing a data set logs: each table's title and lines in order, stopping after the title of the first table that raises |
| TablaConsolaHelper.TableTitle | UtilityCollage/TablaConsolaHelper.cs:17 | defines the title line `[namespace.name]` logged before each table, here and at line 26 |
| TablaConsolaHelper.DataSetLogVisitsTablesInOrder | UtilityCollage/TablaConsolaHelper.cs:15-19 | when every table prints, the data set completes and its log has four lines per table: for the k-th table, its title and then its own three lines |
| TablaConsolaHelper.DataSetFailureIsFinal | UtilityCollage/TablaConsolaHelper.cs:15-19 | once a table has raised, the tables after it change nothing |
| TablaConsolaHelper.DataSetStopsAtFirstFailure | UtilityCollage/TablaConsolaHelper.cs:15-19 | the first table that raises ends the data set: the earlier tables' lines, its title, and that table's error |
| TablaConsolaHelper.DataSetWithErrorsCompletes | UtilityCollage/TablaConsolaHelper.cs:13-20 | with row errors included every data set completes, with four lines per table |
| TablaConsolaHelper.ImprimirTablas | UtilityCollage/TablaConsolaHelper.cs:24-28 | the loop over the tables logs, and completes or raises, exactly as the data set's log defines |
| TablaConsolaHelper.ImprimirDataSet | UtilityCollage/TablaConsolaHelper.cs:22-29 | every table, in order, without row errors |
| TablaConsolaHelper.ImprimirDataSetConErrores | UtilityCollage/TablaConsolaHelper.cs:13-20 | every table, in order, with row errors |

## Left out

- Process execution is not modelled: starting the child, draining standard output through the event handler, reading standard error, `WaitForExit` and `ExitCode` (`CmdHelper.cs:197-213`). The exit code is an input, and a failure to start the process (an exception from `Process.Start`) is not modelled.
- Logging through NLog is not modelled: the `[CMD]` banners, the stdout lines, the stderr text and the path traces. Concurrency between output draining and waiting is not modelled either.
- `EliminarDirectorio`, `ListarFicherosPorNombre`, the compression helpers and `UnirFicheroFragmentado` of `FileHelper.cs` are outside the modelled core.
- A `DataRow` always holds one item per column of its table, so every table is taken to be well formed (`TablaConsolaHelper.WellFormed`). The ConsoleTables package is not part of this model; its `AddRow` is modelled as refusing a row when the table has no columns or the row's width differs, its `ToMinimalString` as raising when the table has no columns, and its other checks (a null row) are left out.
- The text layout of `ConsoleTable.ToMinimalString` (the ConsoleTables package) is not part of this model. A rendered table is represented by its header and rows, and cells by their text (`ToString` of the cell objects).
- Null strings are not modelled. The `null` cases of `String.IsNullOrEmpty` and `ruta == null` are not represented; the empty-string cases are.
- `Directory.CreateDirectory` is assumed to succeed. Access errors and invalid characters are not modelled.
- Environment variable names are map keys compared exactly. Windows looks them up case-insensitively.
- `DirectorySeparatorChar` is fixed to `\`, the Windows value the helpers are written for.
- `ruta.EndsWith(string)` (`FileHelper.cs:260`) is culture-sensitive in .NET. It is modelled as an ordinal check of the last character. That agrees unless the path ends in characters that carry no collation weight (a `\` followed by a soft hyphen U+00AD, say): the culture-sensitive test then sees the `\` and returns the path unchanged, where the model appends another `\`.
- Regular expressions are modelled only for the four patterns the helpers use, not as a general engine.
- CmdHelper.SustituirTokensConVariablesDeEntorno: modelled only for environments whose values contain no `%`. A value that contains its own `%NAME%` makes the loop run forever, so no termination claim exists for such inputs.
- CmdHelper.Expand: has the same restriction on variable values as the loop it specifies.
- FileHelper.NormalizarRuta: modelled only for environments whose values contain no `%`. With such a value the source loop can run forever.
- FileHelper.ExpandGreedy: has the same restriction on variable values as `NormalizarRuta`.
- FileHelper.Normalize: has the same restriction on variable values as `NormalizarRuta`.

=== FILE: CmdHelper.dfy ===
/**
 * CmdHelper: how a Windows command is launched, how its exit code is judged,
 * and how `%NAME%` tokens are replaced by environment variables.
 *
 * The child process itself is not modelled: its exit code is a parameter,
 * `Directory.Exists` is membership in a set of existing directories and the
 * environment is a map from variable names to values.
 */
module CmdHelper {
  import opened Wrappers
  import opened Strings

  // ---------------------------------------------------------------------
  // Launch specification
  // ---------------------------------------------------------------------

  /** The fields of the `ProcessStartInfo` that `Cmd` fills in. */
  datatype LaunchSpec = LaunchSpec(
    fileName: string,
    arguments: string,
    workingDirectory: string,
    redirectStandardOutput: bool,
    redirectStandardError: bool,
    useShellExecute: bool,
    createNoWindow: bool)

  /** The command interpreter used when there are no parameters. */
  const Interpreter := "cmd.exe"

  /**
   * The launch policy: without parameters the command line goes to
   * `cmd.exe /c`, otherwise the command runs directly with the parameters;
   * the working directory is used only when it is given and exists, and is
   * otherwise left at the default (empty: the caller's own directory).
   */
  predicate Launches(spec: LaunchSpec, workingDirectory: string, comando: string, parametros: string,
                     directories: set<string>)
  {
    && (parametros == "" ==> spec.fileName == Interpreter && spec.arguments == "/c " + comando)
    && (parametros != "" ==> spec.fileName == comando && spec.arguments == parametros)
    && (spec.workingDirectory != "" <==> workingDirectory != "" && workingDirectory in directories)
    && (spec.workingDirectory != "" ==> spec.workingDirectory == workingDirectory)
    && spec.redirectStandardOutput && spec.redirectStandardError
    && !spec.useShellExecute && spec.createNoWindow
  }

  /** The policy leaves no freedom: it fixes every field of the launch. */
  lemma LaunchPolicyIsDeterministic(a: LaunchSpec, b: LaunchSpec, workingDirectory: string,
                                    comando: string, parametros: string, directories: set<string>)
    requires Launches(a, workingDirectory, comando, parametros, directories)
    requires Launches(b, workingDirectory, comando, parametros, directories)
    ensures a == b
  {
  }

  /** The child never receives an empty argument string, in either mode. */
  lemma LaunchArgumentsNeverEmpty(spec: LaunchSpec, workingDirectory: string, comando: string,
                                  parametros: string, directories: set<string>)
    requires Launches(spec, workingDirectory, comando, parametros, directories)
    ensures spec.arguments != ""
  {
    if parametros == "" {
      assert spec.arguments[0] == '/';
    }
  }

  /** A working directory that does not exist is silently treated as no directory. */
  lemma MissingDirectoryIsIgnored(spec: LaunchSpec, workingDirectory: string, comando: string,
                                  parametros: string, directories: set<string>)
    requires workingDirectory !in directories
    ensures Launches(spec, workingDirectory, comando, parametros, directories)
        <==> Launches(spec, "", comando, parametros, directories)
  {
  }

  /**
   * `Cmd(workingDirectory, comando, parametros)`: builds the start info, sets
   * the working directory when it applies, runs the process (whose exit code
   * is `exitCode`) and returns that exit code.
   */
  method Cmd(workingDirectory: string, comando: string, parametros: string,
             directories: set<string>, exitCode: int)
    returns (launched: LaunchSpec, codigoSalida: int)
    ensures Launches(launched, workingDirectory, comando, parametros, directories)
    ensures codigoSalida == exitCode
  {
    var parametrosNulos := parametros == "";
    launched := LaunchSpec(
      if parametrosNulos then Interpreter else comando,
      if parametrosNulos then "/c " + comando else parametros,
      "", true, true, false, true);
    if workingDirectory != "" && workingDirectory in directories {
      launched := launched.(workingDirectory := workingDirectory);
    }
    codigoSalida := exitCode;
  }

  /** `Cmd(comando, parametros)`: no working directory. */
  method CmdNoDirectory(comando: string, parametros: string, directories: set<string>, exitCode: int)
    returns (launched: LaunchSpec, codigoSalida: int)
    ensures Launches(launched, "", comando, parametros, directories)
    ensures launched.workingDirectory == ""
    ensures codigoSalida == exitCode
  {
    launched, codigoSalida := Cmd("", comando, parametros, directories, exitCode);
  }

  /** `Cmd(comando)`: the whole command line goes to the interpreter. */
  method CmdLine(comando: string, directories: set<string>, exitCode: int)
    returns (launched: LaunchSpec, codigoSalida: int)
    ensures Launches(launched, "", comando, "", directories)
    ensures launched.fileName == Interpreter && launched.arguments == "/c " + comando
    ensures codigoSalida == exitCode
  {
    launched, codigoSalida := Cmd("", comando, "", directories, exitCode);
  }

  // ---------------------------------------------------------------------
  // Exit-code validation
  // ---------------------------------------------------------------------

  /** The generic `[CMD ERROR]` exception raised for an unexpected exit code. */
  datatype CmdError = CommandFailed

  /** An exit code is accepted when it is the required value or one of the extra values. */
  predicate Accepted(codigoSalida: int, valorSalidaCorrecta: int, valoresSalidaCorrecta: seq<int>)
  {
    codigoSalida == valorSalidaCorrecta || codigoSalida in valoresSalidaCorrecta
  }

  /** With no extra values only the required value is accepted; extra values only widen the set. */
  lemma AcceptedWithoutExtras(codigoSalida: int, valorSalidaCorrecta: int, extra: seq<int>, more: seq<int>)
    ensures Accepted(codigoSalida, valorSalidaCorrecta, []) <==> codigoSalida == valorSalidaCorrecta
    ensures Accepted(codigoSalida, valorSalidaCorrecta, extra) ==> Accepted(codigoSalida, valorSalidaCorrecta, extra + more)
  {
  }

  /**
   * The five-argument `Cmd`: runs the command and raises when the exit code
   * is neither `valorSalidaCorrecta` nor one of `valoresSalidaCorrecta`.
   */
  method CmdValidated(workingDirectory: string, comando: string, parametros: string,
                      valorSalidaCorrecta: int, valoresSalidaCorrecta: seq<int>,
                      directories: set<string>, exitCode: int)
    returns (launched: LaunchSpec, outcome: Outcome<CmdError>)
    ensures Launches(launched, workingDirectory, comando, parametros, directories)
    ensures outcome.Pass? <==> exitCode == valorSalidaCorrecta || exitCode in valoresSalidaCorrecta
    ensures outcome.Fail? ==> outcome.error == CommandFailed
  {
    var codigoSalida;
    launched, codigoSalida := Cmd(workingDirectory, comando, parametros, directories, exitCode);
    if !Accepted(codigoSalida, valorSalidaCorrecta, valoresSalidaCorrecta) {
      return launched, Fail(CommandFailed);
    }
    outcome := Pass;
  }

  /** `Cmd(comando, parametros, valorSalidaCorrecta, valoresSalidaCorrecta)`: no working directory. */
  method CmdNoDirectoryValidated(comando: string, parametros: string, valorSalidaCorrecta: int,
                                 valoresSalidaCorrecta: seq<int>, directories: set<string>, exitCode: int)
    returns (launched: LaunchSpec, outcome: Outcome<CmdError>)
    ensures Launches(launched, "", comando, parametros, directories)
    ensures outcome.Pass? <==> exitCode == valorSalidaCorrecta || exitCode in valoresSalidaCorrecta
    ensures outcome.Fail? ==> outcome.error == CommandFailed
  {
    launched, outcome := CmdValidated("", comando, parametros, valorSalidaCorrecta, valoresSalidaCorrecta,
                                      directories, exitCode);
  }

  /** `Cmd(comando, valorSalidaCorrecta, valoresSalidaCorrecta)`: interpreter mode, no working directory. */
  method CmdLineValidated(comando: string, valorSalidaCorrecta: int, valoresSalidaCorrecta: seq<int>,
                          directories: set<string>, exitCode: int)
    returns (launched: LaunchSpec, outcome: Outcome<CmdError>)
    ensures Launches(launched, "", comando, "", directories)
    ensures outcome.Pass? <==> exitCode == valorSalidaCorrecta || exitCode in valoresSalidaCorrecta
    ensures outcome.Fail? ==> outcome.error == CommandFailed
  {
    launched, outcome := CmdValidated("", comando, "", valorSalidaCorrecta, valoresSalidaCorrecta,
                                      directories, exitCode);
  }

  /** `CmdDefExitCode(workingDirectory, comando, parametros)`: only exit code 0 is accepted. */
  method CmdDefExitCodeIn(workingDirectory: string, comando: string, parametros: string,
                          directories: set<string>, exitCode: int)
    returns (launched: LaunchSpec, outcome: Outcome<CmdError>)
    ensures Launches(launched, workingDirectory, comando, parametros, directories)
    ensures outcome.Pass? <==> exitCode == 0
    ensures outcome.Fail? ==> outcome.error == CommandFailed
  {
    launched, outcome := CmdValidated(workingDirectory, comando, parametros, 0, [], directories, exitCode);
  }

  /** `CmdDefExitCode(comando, parametros)`: no working directory, only exit code 0 is accepted. */
  method CmdDefExitCodeNoDirectory(comando: string, parametros: string, directories: set<string>, exitCode: int)
    returns (launched: LaunchSpec, outcome: Outcome<CmdError>)
    ensures Launches(launched, "", comando, parametros, directories)
    ensures outcome.Pass? <==> exitCode == 0
    ensures outcome.Fail? ==> outcome.error == CommandFailed
  {
    launched, outcome := CmdValidated("", comando, parametros, 0, [], directories, exitCode);
  }

  /** `CmdDefExitCode(comando)`: interpreter mode, no working directory, only exit code 0 is accepted. */
  method CmdDefExitCode(comando: string, directories: set<string>, exitCode: int)
    returns (launched: LaunchSpec, outcome: Outcome<CmdError>)
    ensures Launches(launched, "", comando, "", directories)
    ensures outcome.Pass? <==> exitCode == 0
    ensures outcome.Fail? ==> outcome.error == CommandFailed
  {
    launched, outcome := CmdValidated("", comando, "", 0, [], directories, exitCode);
  }

  // ---------------------------------------------------------------------
  // %NAME% token expansion
  // ---------------------------------------------------------------------

  /** `[A-Za-z0-9_()]`: the characters a token name is made of. */
  predicate IsNameChar(c: char)
  {
    ('A' <= c <= 'Z') || ('a' <= c <= 'z') || ('0' <= c <= '9') || c == '_' || c == '(' || c == ')'
  }

  /** The pattern `(?<=%)[A-Za-z0-9_()]+(?=%)` matches `s[p..q]`. */
  predicate TokenAt(s: string, p: int, q: int)
  {
    && 0 < p < q < |s|
    && s[p - 1] == '%' && s[q] == '%'
    && forall k :: p <= k < q ==> IsNameChar(s[k])
  }

  ghost predicate HasToken(s: string)
  {
    exists p, q :: TokenAt(s, p, q)
  }

  /** The end of the run of name characters that starts at `p`. */
  function NameEnd(s: string, p: nat): (e: nat)
    requires p <= |s|
    ensures p <= e <= |s|
    ensures forall k :: p <= k < e ==> IsNameChar(s[k])
    ensures e < |s| ==> !IsNameChar(s[e])
    decreases |s| - p
  {
    if p < |s| && IsNameChar(s[p]) then NameEnd(s, p + 1) else p
  }

  /** The regex scan from position `p` on. */
  function FindTokenFrom(s: string, p: nat): (r: Option<(nat, nat)>)
    requires 1 <= p
    ensures r.Some? ==> p <= r.value.0 && TokenAt(s, r.value.0, r.value.1)
    ensures r.Some? ==> forall p', q' :: p <= p' < r.value.0 ==> !TokenAt(s, p', q')
    ensures r.None? ==> forall p', q' :: p <= p' ==> !TokenAt(s, p', q')
    decreases |s| - p
  {
    if p >= |s| then None
    else
      var e := NameEnd(s, p);
      if s[p - 1] == '%' && p < e < |s| && s[e] == '%' then Some((p, e))
      else FindTokenFrom(s, p + 1)
  }

  /**
   * `re.Match(s)`: the leftmost token, as the bounds of its name. The name
   * runs up to the next non-name character, so the match is unique.
   */
  function FindToken(s: string): (r: Option<(nat, nat)>)
    ensures r.None? <==> !HasToken(s)
    ensures r.Some? ==> TokenAt(s, r.value.0, r.value.1)
    ensures r.Some? ==> forall p', q' :: TokenAt(s, p', q') ==> r.value.0 <= p'
  {
    FindTokenFrom(s, 1)
  }

  /** A string without `%` holds no token. */
  lemma NoPercentNoToken(s: string)
    requires '%' !in s
    ensures !HasToken(s)
  {
  }

  /** `GetEnvironmentVariable(name) ?? "$name_INDEFINIDA$"`. */
  function Lookup(env: map<string, string>, name: string): string
  {
    if name in env then env[name] else "$" + name + "_INDEFINIDA$"
  }

  /** One pass of the loop: the leftmost token's `%NAME%` replaced throughout by its value. */
  function ExpandStep(s: string, env: map<string, string>): string
    requires FindToken(s).Some?
  {
    var name := s[FindToken(s).value.0..FindToken(s).value.1];
    ReplaceAll(s, "%" + name + "%", Lookup(env, name))
  }

  /** The text substituted for a name never contains `%` when the values do not. */
  lemma LookupPercentFree(env: map<string, string>, name: string)
    requires ValuesFreeOf(env, '%')
    requires forall k :: 0 <= k < |name| ==> IsNameChar(name[k])
    ensures '%' !in Lookup(env, name)
  {
    if name !in env {
      var v := "$" + name + "_INDEFINIDA$";
      forall k | 0 <= k < |v| ensures v[k] != '%' {
        if 1 <= k < 1 + |name| {
          assert v[k] == name[k - 1];
        }
      }
    }
  }

  /** Each pass removes at least the two delimiters of the token and adds no `%`. */
  lemma {:induction false} ExpandStepLowersPercentCount(s: string, env: map<string, string>)
    requires FindToken(s).Some?
    requires ValuesFreeOf(env, '%')
    ensures Count(ExpandStep(s, env), '%') < Count(s, '%')
  {
    var (p, q) := FindToken(s).value;
    var name := s[p..q];
    var pat := "%" + name + "%";
    LookupPercentFree(env, name);
    assert pat[0] == '%';
    SliceAround(s, p, q);
    ReplaceAllCountBelow(s, pat, Lookup(env, name), '%', p - 1);
  }

  /** A pass with the leftmost token at `(p, q)` replaces `%NAME%` for `NAME = s[p..q]`. */
  lemma ExpandStepAt(s: string, env: map<string, string>, p: nat, q: nat)
    requires FindToken(s) == Some((p, q))
    ensures ExpandStep(s, env) == ReplaceAll(s, "%" + s[p..q] + "%", Lookup(env, s[p..q]))
  {
  }

  /** The leftmost token's `%NAME%` occurs nowhere before that token. */
  lemma TokenPatternFirstAt(s: string, p: nat, q: nat)
    requires TokenAt(s, p, q)
    requires forall p', q' :: TokenAt(s, p', q') ==> p <= p'
    ensures forall j :: 0 <= j < p - 1 ==> !OccursAt(s, "%" + s[p..q] + "%", j)
  {
    var name := s[p..q];
    var pat := "%" + name + "%";
    forall j | 0 <= j < p - 1 ensures !OccursAt(s, pat, j) {
      if OccursAt(s, pat, j) {
        assert s[j..j + |pat|] == pat;
        assert s[j] == pat[0] == '%';
        assert s[j + 1 + |name|] == pat[|pat| - 1] == '%';
        forall k | j + 1 <= k < j + 1 + |name| ensures IsNameChar(s[k]) {
          assert s[k] == pat[k - j] == name[k - j - 1];
        }
        assert TokenAt(s, j + 1, j + 1 + |name|);
      }
    }
  }

  /**
   * A pass keeps everything before the leftmost token, puts the value (or
   * the `$NAME_INDEFINIDA$` sentinel) in its place, and goes on replacing
   * `%NAME%` in the rest of the string.
   */
  lemma ExpandStepReplacesLeftmostToken(s: string, env: map<string, string>, p: nat, q: nat)
    requires FindToken(s) == Some((p, q))
    ensures ExpandStep(s, env) ==
              s[..p - 1] + Lookup(env, s[p..q]) + ReplaceAll(s[q + 1..], "%" + s[p..q] + "%", Lookup(env, s[p..q]))
  {
    ReplaceAtLeftmostToken(s, p, q, Lookup(env, s[p..q]));
    ExpandStepAt(s, env, p, q);
  }

  /** Replacing the leftmost token's `%NAME%` keeps what precedes the token and resumes after it. */
  lemma ReplaceAtLeftmostToken(s: string, p: nat, q: nat, v: string)
    requires TokenAt(s, p, q)
    requires forall p', q' :: TokenAt(s, p', q') ==> p <= p'
    ensures ReplaceAll(s, "%" + s[p..q] + "%", v) == s[..p - 1] + v + ReplaceAll(s[q + 1..], "%" + s[p..q] + "%", v)
  {
    var pat := "%" + s[p..q] + "%";
    assert OccursAt(s, pat, p - 1) by {
      SliceAround(s, p, q);
    }
    TokenPatternFirstAt(s, p, q);
    assert p - 1 + |pat| == q + 1;
    ReplaceAllAtFirstOccurrence(s, pat, v, p - 1);
  }

  /**
   * What the loop computes: passes are applied until no token is left. The
   * result holds no token and no more `%` than the input; a string without
   * tokens is returned unchanged.
   */
  function Expand(s: string, env: map<string, string>): (r: string)
    requires ValuesFreeOf(env, '%')
    ensures !HasToken(r)
    ensures Count(r, '%') <= Count(s, '%')
    ensures !HasToken(s) ==> r == s
    decreases Count(s, '%')
  {
    if FindToken(s).None? then s
    else
      ExpandStepLowersPercentCount(s, env);
      Expand(ExpandStep(s, env), env)
  }

  /** Expanding an expanded string changes nothing. */
  lemma ExpandIdempotent(s: string, env: map<string, string>)
    requires ValuesFreeOf(env, '%')
    ensures Expand(Expand(s, env), env) == Expand(s, env)
  {
  }

  /** `SustituirTokensConVariablesDeEntorno("%X%B%X%")` with `X=val` replaces both references: `"valBval"`. */
  lemma ExpandExample()
    ensures Expand("%X%B%X%", map["X" := "val"]) == "valBval"
  {
    var env := map["X" := "val"];
    var s := "%X%B%X%";
    assert NameEnd(s, 1) == 2;
    assert FindToken(s) == Some((1, 2));
    assert s[1..2] == "X";
    var pat := "%X%";
    assert ExpandStep(s, env) == ReplaceAll(s, pat, "val");
    assert ReplaceAll("%X%", pat, "val") == "val" by {
      assert OccursAt("%X%", pat, 0);
      ReplaceAllHit("%X%", pat, "val");
      assert "%X%"[3..] == "";
    }
    assert ReplaceAll("B%X%", pat, "val") == "Bval" by {
      assert "B%X%"[..3][0] != pat[0];
      ReplaceAllSkip("B%X%", pat, "val");
      assert "B%X%"[1..] == "%X%";
    }
    assert ReplaceAll(s, pat, "val") == "valBval" by {
      assert OccursAt(s, pat, 0);
      ReplaceAllHit(s, pat, "val");
      assert s[3..] == "B%X%";
    }
    NoPercentNoToken("valBval");
  }

  /**
   * `SustituirTokensConVariablesDeEntorno`: while the pattern matches, the
   * leftmost name is looked up and every `%NAME%` is replaced by its value,
   * or by `$NAME_INDEFINIDA$` when the variable is not defined.
   */
  method SustituirTokensConVariablesDeEntorno(cadena: string, env: map<string, string>)
    returns (cadenaResultante: string)
    requires ValuesFreeOf(env, '%')
    ensures cadenaResultante == Expand(cadena, env)
    ensures !HasToken(cadenaResultante)
    ensures !HasToken(cadena) ==> cadenaResultante == cadena
  {
    cadenaResultante := cadena;
    while FindToken(cadenaResultante).Some?
      invariant Expand(cadenaResultante, env) == Expand(cadena, env)
      decreases Count(cadenaResultante, '%')
    {
      var (p, q) := FindToken(cadenaResultante).value;
      var name := cadenaResultante[p..q];
      var valvar := Lookup(env, name);
      ExpandStepLowersPercentCount(cadenaResultante, env);
      cadenaResultante := ReplaceAll(cadenaResultante, "%" + name + "%", valvar);
    }
  }
}

=== FILE: FileHelper.dfy ===
/**
 * FileHelper: recognising absolute Windows paths, creating every folder of a
 * drive path, and normalising a path by expanding `%...%` environment
 * references.
 *
 * `Directory.Exists` / `CreateDirectory` become a set of existing
 * directories that `CrearDirectorio` extends, and the environment is a map
 * from variable names to values.
 */
module FileHelper {
  import opened Wrappers
  import opened Strings

  /** The class `[A-Za-z]` of both drive patterns. */
  predicate IsAsciiLetter(c: char)
  {
    ('A' <= c <= 'Z') || ('a' <= c <= 'z')
  }

  // ---------------------------------------------------------------------
  // EsRutaRelativa
  // ---------------------------------------------------------------------

  /** A letter at `i` immediately followed by `:\`. */
  predicate DriveMarkerAt(s: string, i: int)
  {
    0 <= i && i + 2 < |s| && IsAsciiLetter(s[i]) && s[i + 1] == ':' && s[i + 2] == '\\'
  }

  /** Whether the unanchored pattern `[A-Za-z]+(:\\){1}.*` matches from `i` on. */
  function HasDriveMarkerFrom(s: string, i: nat): (r: bool)
    ensures r <==> exists k :: i <= k && DriveMarkerAt(s, k)
    decreases |s| - i
  {
    if i + 2 >= |s| then false
    else DriveMarkerAt(s, i) || HasDriveMarkerFrom(s, i + 1)
  }

  /** `EsRutaRelativa`: a path is relative unless some letter in it is followed by `:\`. */
  function EsRutaRelativa(ruta: string): (r: bool)
    ensures r <==> forall i :: !DriveMarkerAt(ruta, i)
  {
    !HasDriveMarkerFrom(ruta, 0)
  }

  /** `"../"` is relative and `"c:\Windows"` is not. */
  lemma EsRutaRelativaExamples()
    ensures EsRutaRelativa("../")
    ensures !EsRutaRelativa("c:\\Windows")
  {
    assert DriveMarkerAt("c:\\Windows", 0);
  }

  // ---------------------------------------------------------------------
  // CrearDirectorio
  // ---------------------------------------------------------------------

  /** The end of the run of letters that starts at `i`. */
  function LetterRunEnd(s: string, i: nat): (e: nat)
    requires i <= |s|
    ensures i <= e <= |s|
    ensures forall k :: i <= k < e ==> IsAsciiLetter(s[k])
    ensures e < |s| ==> !IsAsciiLetter(s[e])
    decreases |s| - i
  {
    if i < |s| && IsAsciiLetter(s[i]) then LetterRunEnd(s, i + 1) else i
  }

  /** `.*$` matches all of `t`: a newline may only be its last character. */
  predicate NewlineOnlyAtEnd(t: string)
  {
    forall k :: 0 <= k < |t| - 1 ==> t[k] != '\n'
  }

  /** The anchored pattern `^[A-Za-z]+(:){1}(\\){1,2}.*$` matches `ruta`. */
  predicate IsDrivePath(ruta: string)
  {
    var n := LetterRunEnd(ruta, 0);
    1 <= n && n + 1 < |ruta| && ruta[n] == ':' && ruta[n + 1] == '\\' && NewlineOnlyAtEnd(ruta[n + 2..])
  }

  /** In a drive path the first `:` ends the run of drive letters. */
  lemma DriveColon(ruta: string)
    requires IsDrivePath(ruta)
    ensures IndexOf(ruta, ':') == LetterRunEnd(ruta, 0)
  {
    var n := LetterRunEnd(ruta, 0);
    assert ':' !in ruta[..n] by {
      forall k | 0 <= k < n ensures ruta[..n][k] != ':' {
        assert IsAsciiLetter(ruta[k]);
      }
    }
    assert ruta[..n + 1] == ruta[..n] + [':'];
    assert ':' in ruta[..n + 1];
  }

  /** The value of `folders` once the segments `cs` have been visited, starting from `root`. */
  function Accumulated(root: string, cs: seq<string>): string
    decreases |cs|
  {
    if cs == [] then root
    else
      var prev := Accumulated(root, cs[..|cs| - 1]);
      var c := cs[|cs| - 1];
      if c == "" then prev else prev + c + "\\"
  }

  /** The folders that are checked and, when missing, created, in order. */
  function Considered(root: string, cs: seq<string>): seq<string>
    decreases |cs|
  {
    if cs == [] then []
    else
      var prev := Considered(root, cs[..|cs| - 1]);
      if cs[|cs| - 1] == "" then prev else prev + [Accumulated(root, cs)]
  }

  /** The drive, `ruta` up to and including its first `:`. */
  function Drive(ruta: string): string
    requires ':' in ruta
  {
    ruta[..IndexOf(ruta, ':') + 1]
  }

  /** The pieces of `ruta` after its first `:`, split at every `\`. */
  function Carpetas(ruta: string): seq<string>
    requires ':' in ruta
  {
    Split(ruta[IndexOf(ruta, ':') + 1..], '\\')
  }

  /** Everything `CrearDirectorio(ruta)` checks and creates when missing. */
  function DirectoriesFor(ruta: string): seq<string>
  {
    if ruta == "" || !IsDrivePath(ruta) then []
    else
      DriveColon(ruta);
      Considered(Drive(ruta) + "\\", Carpetas(ruta))
  }

  /**
   * `CrearDirectorio`: for a drive path, walks the segments after the
   * drive, skipping empty ones, and creates every cumulative folder
   * `drive\s1\`, `drive\s1\s2\`, ... that does not exist yet. Any other
   * path is ignored.
   */
  method CrearDirectorio(ruta: string, existing: set<string>) returns (after: set<string>)
    ensures after == existing + set d | d in DirectoriesFor(ruta)
    ensures ruta == "" || !IsDrivePath(ruta) ==> after == existing
  {
    after := existing;
    if ruta == "" || !IsDrivePath(ruta) {
      return;
    }
    DriveColon(ruta);
    var colon := IndexOf(ruta, ':');
    var unidad := ruta[..colon + 1];
    var carpetas := Split(ruta[colon + 1..], '\\');
    var folders := unidad + "\\";
    for k := 0 to |carpetas|
      invariant folders == Accumulated(unidad + "\\", carpetas[..k])
      invariant after == existing + set d | d in Considered(unidad + "\\", carpetas[..k])
    {
      assert carpetas[..k + 1][..k] == carpetas[..k];
      var carpeta := carpetas[k];
      if carpeta == "" {
        continue;
      }
      folders := folders + carpeta + "\\";
      if folders !in after {
        after := after + {folders};
      }
    }
    assert carpetas[..|carpetas|] == carpetas;
  }

  // The independent description: the non-empty segments, each followed by `\`.

  /** The segments of `cs` that are not empty, in order. */
  function NonEmpty(cs: seq<string>): (r: seq<string>)
    ensures forall k :: 0 <= k < |r| ==> r[k] != "" && r[k] in cs
    ensures forall x :: x in r <==> x in cs && x != ""
    decreases |cs|
  {
    if cs == [] then []
    else
      var prev := NonEmpty(cs[..|cs| - 1]);
      if cs[|cs| - 1] == "" then prev else prev + [cs[|cs| - 1]]
  }

  /** `s1\s2\...\sk\`. */
  function Trailing(segs: seq<string>): string
    decreases |segs|
  {
    if segs == [] then "" else Trailing(segs[..|segs| - 1]) + segs[|segs| - 1] + "\\"
  }

  lemma {:induction false} AccumulatedIsTrailing(root: string, cs: seq<string>)
    ensures Accumulated(root, cs) == root + Trailing(NonEmpty(cs))
    decreases |cs|
  {
    if cs != [] {
      var init := cs[..|cs| - 1];
      AccumulatedIsTrailing(root, init);
      var ne := NonEmpty(cs);
      if cs[|cs| - 1] != "" {
        assert ne[..|ne| - 1] == NonEmpty(init);
      }
    }
  }

  /**
   * The folders considered are exactly `root + s1\`, `root + s1\s2\`, ...,
   * one for each non-empty segment, in the order of the segments.
   */
  lemma {:induction false} ConsideredAreCumulative(root: string, cs: seq<string>)
    ensures |Considered(root, cs)| == |NonEmpty(cs)|
    ensures forall j :: 0 <= j < |Considered(root, cs)| ==>
              Considered(root, cs)[j] == root + Trailing(NonEmpty(cs)[..j + 1])
    decreases |cs|
  {
    if cs != [] {
      var init := cs[..|cs| - 1];
      var last := cs[|cs| - 1];
      ConsideredAreCumulative(root, init);
      if last != "" {
        var prev := Considered(root, init);
        var con := Considered(root, cs);
        var ne := NonEmpty(cs);
        assert con == prev + [Accumulated(root, cs)];
        assert ne == NonEmpty(init) + [last];
        forall j | 0 <= j < |con|
          ensures con[j] == root + Trailing(ne[..j + 1])
        {
          if j < |prev| {
            assert ne[..j + 1] == NonEmpty(init)[..j + 1];
          } else {
            AccumulatedIsTrailing(root, cs);
            assert ne[..j + 1] == ne;
          }
        }
      }
    }
  }

  /**
   * Every folder considered ends with `\` and starts with `root`, and each
   * one is a proper prefix of the next.
   */
  lemma ConsideredFormAChain(root: string, cs: seq<string>)
    ensures forall j :: 0 <= j < |Considered(root, cs)| ==>
              EndsWith(Considered(root, cs)[j], '\\') && root <= Considered(root, cs)[j]
    ensures forall j :: 0 <= j < |Considered(root, cs)| - 1 ==>
              Considered(root, cs)[j] < Considered(root, cs)[j + 1]
  {
    var c := Considered(root, cs);
    var ne := NonEmpty(cs);
    ConsideredAreCumulative(root, cs);
    forall j | 0 <= j < |c|
      ensures EndsWith(c[j], '\\') && root <= c[j]
    {
      TrailingStep(ne, j);
      PrefixOfExtension(root, Trailing(ne[..j + 1]));
    }
    forall j | 0 <= j < |c| - 1
      ensures c[j] < c[j + 1]
    {
      TrailingStep(ne, j + 1);
      assert c[j + 1] == c[j] + (ne[j + 1] + "\\");
      PrefixOfExtension(c[j], ne[j + 1] + "\\");
    }
  }

  /** The trailing form of the first `j + 1` segments extends that of the first `j`. */
  lemma TrailingStep(segs: seq<string>, j: nat)
    requires j < |segs|
    ensures Trailing(segs[..j + 1]) == Trailing(segs[..j]) + segs[j] + "\\"
    ensures EndsWith(Trailing(segs[..j + 1]), '\\')
  {
    assert segs[..j + 1][..j] == segs[..j];
  }

  /** `a` is a prefix of `a + x`, and a proper one when `x` is not empty. */
  lemma PrefixOfExtension(a: string, x: string)
    ensures a <= a + x
    ensures x != [] ==> a < a + x
  {
    assert (a + x)[..|a|] == a;
  }

  /** No two consecutive `\` from index `from` on. */
  predicate NoDoubleSeparatorFrom(s: string, from: int)
  {
    forall i :: from <= i && 0 <= i && i + 1 < |s| ==> !(s[i] == '\\' && s[i + 1] == '\\')
  }

  lemma {:induction false} TrailingHasNoDoubleSeparator(segs: seq<string>)
    requires forall k :: 0 <= k < |segs| ==> segs[k] != "" && '\\' !in segs[k]
    ensures NoDoubleSeparatorFrom("\\" + Trailing(segs), 0)
    ensures EndsWith("\\" + Trailing(segs), '\\')
    decreases |segs|
  {
    if segs != [] {
      var init := segs[..|segs| - 1];
      var seg := segs[|segs| - 1];
      TrailingHasNoDoubleSeparator(init);
      var x := "\\" + Trailing(init);
      var y := x + seg + "\\";
      assert "\\" + Trailing(segs) == y;
      forall i | 0 <= i && i + 1 < |y| ensures !(y[i] == '\\' && y[i + 1] == '\\') {
        if i + 1 < |x| {
          assert y[i] == x[i] && y[i + 1] == x[i + 1];
        } else if i + 1 == |x| {
          assert y[i + 1] == seg[0];
          assert seg[0] in seg;
        } else if i < |x| + |seg| {
          assert y[i] == seg[i - |x|];
          assert seg[i - |x|] in seg;
        }
      }
    }
  }

  /** A drive followed by `\\s1\\...\\sk\\` has no `\\\\` after the drive. */
  lemma PrefixedHasNoDoubleSeparator(d: string, segs: seq<string>)
    requires forall k :: 0 <= k < |segs| ==> segs[k] != "" && '\\' !in segs[k]
    ensures NoDoubleSeparatorFrom(d + "\\" + Trailing(segs), |d|)
  {
    TrailingHasNoDoubleSeparator(segs);
    var tail := "\\" + Trailing(segs);
    var x := d + tail;
    assert x == d + "\\" + Trailing(segs);
    forall i | |d| <= i && i + 1 < |x| ensures !(x[i] == '\\' && x[i + 1] == '\\') {
      assert x[i] == tail[i - |d|] && x[i + 1] == tail[i + 1 - |d|];
    }
  }

  /** After the drive no folder considered contains `\\\\`: empty segments are skipped. */
  lemma NoDoubleSeparatorAfterDrive(ruta: string)
    requires ':' in ruta
    ensures forall j :: 0 <= j < |DirectoriesFor(ruta)| ==> NoDoubleSeparatorFrom(DirectoriesFor(ruta)[j], |Drive(ruta)|)
  {
    if ruta != "" && IsDrivePath(ruta) {
      var d := Drive(ruta);
      var cs := Carpetas(ruta);
      var c := DirectoriesFor(ruta);
      var ne := NonEmpty(cs);
      assert c == Considered(d + "\\", cs);
      ConsideredAreCumulative(d + "\\", cs);
      forall k | 0 <= k < |ne| ensures '\\' !in ne[k] {
        var m :| 0 <= m < |cs| && cs[m] == ne[k];
      }
      forall j | 0 <= j < |c| ensures NoDoubleSeparatorFrom(c[j], |d|) {
        var segs := ne[..j + 1];
        assert forall k :: 0 <= k < |segs| ==> segs[k] == ne[k];
        PrefixedHasNoDoubleSeparator(d, segs);
        assert c[j] == d + "\\" + Trailing(segs);
      }
    }
  }

  lemma {:induction false} JoinSnoc(xs: seq<string>, y: string, sep: char)
    requires |xs| >= 1
    ensures Join(xs + [y], sep) == Join(xs, sep) + [sep] + y
    decreases |xs|
  {
    if |xs| == 1 {
      assert (xs + [y])[1..] == [y];
    } else {
      assert (xs + [y])[1..] == xs[1..] + [y];
      JoinSnoc(xs[1..], y, sep);
    }
  }

  lemma {:induction false} JoinAroundIsTrailing(segs: seq<string>)
    ensures Join([""] + segs + [""], '\\') == "\\" + Trailing(segs)
    decreases |segs|
  {
    if segs == [] {
      assert [""] + segs + [""] == ["", ""];
      assert Join(["", ""], '\\') == "" + "\\" + Join([""], '\\');
    } else {
      var init := segs[..|segs| - 1];
      var l := segs[|segs| - 1];
      var xs := [""] + init;
      calc {
        Join([""] + segs + [""], '\\');
        { assert [""] + segs + [""] == xs + [l] + [""]; }
        Join(xs + [l] + [""], '\\');
        { JoinSnoc(xs + [l], "", '\\'); }
        Join(xs + [l], '\\') + "\\" + "";
        { JoinSnoc(xs, l, '\\'); }
        Join(xs, '\\') + "\\" + l + "\\" + "";
        { JoinAroundIsTrailing(init);
          JoinSnoc(xs, "", '\\');
          assert xs + [""] == [""] + init + [""];
          assert Join(xs, '\\') + "\\" == "\\" + Trailing(init); }
        "\\" + Trailing(init) + l + "\\";
      }
    }
  }

  lemma {:induction false} NonEmptyOfNonEmpty(segs: seq<string>)
    requires forall k :: 0 <= k < |segs| ==> segs[k] != ""
    ensures NonEmpty([""] + segs) == segs
    decreases |segs|
  {
    if segs != [] {
      var init := segs[..|segs| - 1];
      assert ([""] + segs)[..|segs|] == [""] + init;
      NonEmptyOfNonEmpty(init);
    } else {
      assert ([""] + segs)[..0] == [];
    }
  }

  /** `letters:\tail` is a drive path whose drive is `letters:`. */
  lemma DrivePathOf(letters: string, tail: string)
    requires |letters| >= 1 && forall k :: 0 <= k < |letters| ==> IsAsciiLetter(letters[k])
    requires '\n' !in tail
    ensures var ruta := letters + ":\\" + tail;
            IsDrivePath(ruta) && Drive(ruta) == letters + ":" && Carpetas(ruta) == Split("\\" + tail, '\\')
  {
    var ruta := letters + ":\\" + tail;
    var n := |letters|;
    assert LetterRunEnd(ruta, 0) == n by {
      assert ruta[n] == ':';
      assert forall k :: 0 <= k < n ==> ruta[k] == letters[k];
    }
    assert IsDrivePath(ruta) by {
      assert ruta[n] == ':' && ruta[n + 1] == '\\';
      assert ruta[n + 2..] == tail;
    }
    assert IndexOf(ruta, ':') == n by {
      DriveColon(ruta);
    }
    assert ruta[..n + 1] == letters + ":";
    assert ruta[n + 1..] == "\\" + tail;
  }

  /** Splitting `\s1\...\sk\` gives an empty piece, the segments, and an empty piece. */
  lemma SplitTrailing(segs: seq<string>)
    requires forall k :: 0 <= k < |segs| ==> '\\' !in segs[k]
    ensures Split("\\" + Trailing(segs), '\\') == [""] + segs + [""]
  {
    var parts := [""] + segs + [""];
    JoinAroundIsTrailing(segs);
    forall k | 0 <= k < |parts| ensures '\\' !in parts[k] {
      if 0 < k < |parts| - 1 {
        assert parts[k] == segs[k - 1];
      }
    }
    SplitJoin(parts, '\\');
  }

  /** Visiting an empty piece, the segments and an empty piece considers one folder per segment. */
  lemma ConsideredAround(root: string, segs: seq<string>)
    requires |segs| >= 1
    requires forall k :: 0 <= k < |segs| ==> segs[k] != ""
    ensures |Considered(root, [""] + segs + [""])| == |segs|
    ensures Considered(root, [""] + segs + [""])[|segs| - 1] == root + Trailing(segs)
  {
    var parts := [""] + segs + [""];
    assert parts[..|parts| - 1] == [""] + segs;
    assert Considered(root, parts) == Considered(root, [""] + segs);
    ConsideredAreCumulative(root, [""] + segs);
    NonEmptyOfNonEmpty(segs);
    assert segs[..|segs|] == segs;
  }

  /**
   * Creating `drive:\s1\...\sk\` (the shape a normalised path has) leaves
   * that very folder existing, after all its parents.
   */
  lemma CrearDirectorioCreatesThePath(letters: string, segs: seq<string>)
    requires |letters| >= 1 && forall k :: 0 <= k < |letters| ==> IsAsciiLetter(letters[k])
    requires |segs| >= 1
    requires forall k :: 0 <= k < |segs| ==> segs[k] != "" && '\\' !in segs[k] && '\n' !in segs[k]
    ensures var ruta := letters + ":\\" + Trailing(segs);
            IsDrivePath(ruta) && |DirectoriesFor(ruta)| == |segs| &&
            DirectoriesFor(ruta)[|segs| - 1] == ruta
  {
    var tail := Trailing(segs);
    var ruta := letters + ":\\" + tail;
    var root := letters + ":\\";
    TrailingNewlineFree(segs);
    DrivePathOf(letters, tail);
    assert DirectoriesFor(ruta) == Considered(root, [""] + segs + [""]) by {
      SplitTrailing(segs);
      assert letters + ":" + "\\" == root;
    }
    ConsideredAround(root, segs);
  }

  lemma {:induction false} TrailingNewlineFree(segs: seq<string>)
    requires forall k :: 0 <= k < |segs| ==> '\n' !in segs[k]
    ensures '\n' !in Trailing(segs)
    decreases |segs|
  {
    if segs != [] {
      TrailingNewlineFree(segs[..|segs| - 1]);
      assert '\n' !in segs[|segs| - 1];
    }
  }

  // ---------------------------------------------------------------------
  // NormalizarRuta
  // ---------------------------------------------------------------------

  /** `Path.DirectorySeparatorChar` on Windows. */
  const DirectorySeparatorChar := '\\'

  /** The `ArgumentException` raised for an undefined or empty variable. */
  datatype PathError = ArgumentException(variable: string)

  /** `(?=%)` can hold at `q` for a `.*` that starts at `i`: `s[q]` is `%` and no newline lies between. */
  predicate ReachableAt(s: string, i: int, q: int)
  {
    0 <= i <= q < |s| && s[q] == '%' && forall k :: i <= k < q ==> s[k] != '\n'
  }

  /** The pattern `(?<=%).*(?=%)` can match `s[p..q]`. */
  predicate CandidateAt(s: string, p: int, q: int)
  {
    0 < p && ReachableAt(s, p, q) && s[p - 1] == '%'
  }

  ghost predicate HasCandidate(s: string)
  {
    exists p, q :: CandidateAt(s, p, q)
  }

  lemma ReachableStep(s: string, i: nat)
    requires i < |s| && s[i] != '\n'
    ensures forall q :: ReachableAt(s, i, q) <==> (q == i && s[i] == '%') || ReachableAt(s, i + 1, q)
  {
  }

  /** Where greedy `.*(?=%)` stops when it starts at `i`: the last reachable `%`. */
  function LastReachable(s: string, i: nat): (r: Option<nat>)
    ensures r.Some? ==> ReachableAt(s, i, r.value)
    ensures r.Some? ==> forall q :: ReachableAt(s, i, q) ==> q <= r.value
    ensures r.None? ==> forall q :: !ReachableAt(s, i, q)
    decreases |s| - i
  {
    if i >= |s| || s[i] == '\n' then None
    else
      ReachableStep(s, i);
      match LastReachable(s, i + 1)
      case Some(q) => Some(q)
      case None => if s[i] == '%' then Some(i) else None
  }

  /** The regex scan from position `p` on. */
  function GreedyMatchFrom(s: string, p: nat): (r: Option<(nat, nat)>)
    requires 1 <= p
    ensures r.Some? ==> p <= r.value.0 && CandidateAt(s, r.value.0, r.value.1)
    ensures r.Some? ==> forall p', q' :: p <= p' < r.value.0 ==> !CandidateAt(s, p', q')
    ensures r.Some? ==> forall q' :: CandidateAt(s, r.value.0, q') ==> q' <= r.value.1
    ensures r.None? ==> forall p', q' :: p <= p' ==> !CandidateAt(s, p', q')
    decreases |s| - p
  {
    if p >= |s| then None
    else if s[p - 1] == '%' && LastReachable(s, p).Some? then Some((p, LastReachable(s, p).value))
    else GreedyMatchFrom(s, p + 1)
  }

  /** `re.Match(ruta)`: the leftmost start, and from there the longest match. */
  function GreedyMatch(s: string): (r: Option<(nat, nat)>)
    ensures r.None? <==> !HasCandidate(s)
    ensures r.Some? ==> CandidateAt(s, r.value.0, r.value.1)
    ensures r.Some? ==> forall p', q' :: CandidateAt(s, p', q') ==> r.value.0 <= p'
    ensures r.Some? ==> forall q' :: CandidateAt(s, r.value.0, q') ==> q' <= r.value.1
  {
    GreedyMatchFrom(s, 1)
  }

  /**
   * On a single line the name looked up is everything between the first
   * and the last `%`, and there is a match exactly when there are two `%`.
   */
  lemma GreedyMatchOnOneLine(s: string)
    requires '\n' !in s
    ensures GreedyMatch(s).Some? <==> Count(s, '%') >= 2
    ensures GreedyMatch(s).Some? ==>
              GreedyMatch(s).value.0 - 1 == IndexOf(s, '%') &&
              s[GreedyMatch(s).value.1] == '%' && '%' !in s[GreedyMatch(s).value.1 + 1..]
  {
    TwoOccurrences(s, '%');
    if Count(s, '%') >= 2 {
      var i, j :| 0 <= i < j < |s| && s[i] == '%' && s[j] == '%';
      assert CandidateAt(s, i + 1, j);
    }
    if GreedyMatch(s).Some? {
      var (p, q) := GreedyMatch(s).value;
      assert s[p - 1] == '%' && s[q] == '%' && p - 1 < q;
      var f := IndexOf(s, '%');
      if f != p - 1 {
        assert f < p - 1 by {
          assert s[..p - 1][f] == '%';
        }
        assert CandidateAt(s, f + 1, q);
      }
      if '%' in s[q + 1..] {
        var k :| 0 <= k < |s[q + 1..]| && s[q + 1..][k] == '%';
        assert CandidateAt(s, p, q + 1 + k);
      }
    }
  }

  /** A single line on which the pattern no longer matches holds fewer than two `%`. */
  lemma NoCandidateOnOneLine(s: string)
    requires '\n' !in s
    requires !HasCandidate(s)
    ensures Count(s, '%') < 2
  {
    GreedyMatchOnOneLine(s);
  }

  /** One pass removes the whole `%name%` span (at least two `%`) and adds none. */
  lemma GreedyStepLowersPercentCount(s: string, p: nat, q: nat, value: string)
    requires CandidateAt(s, p, q)
    requires '%' !in value
    ensures Count(ReplaceAll(s, "%" + s[p..q] + "%", value), '%') < Count(s, '%')
  {
    var pat := "%" + s[p..q] + "%";
    assert pat[0] == '%';
    SliceAround(s, p, q);
    ReplaceAllCountBelow(s, pat, value, '%', p - 1);
  }

  /**
   * What the expansion loop computes: while the pattern matches, the
   * matched name must be a defined, non-empty variable, and every
   * `%name%` is replaced by its value.
   */
  function ExpandGreedy(s: string, env: map<string, string>): (r: Result<string, PathError>)
    requires ValuesFreeOf(env, '%')
    ensures r.Success? ==> !HasCandidate(r.value) && Count(r.value, '%') <= Count(s, '%')
    ensures r.Failure? ==> r.error.variable !in env || env[r.error.variable] == ""
    ensures GreedyMatch(s).Some? ==>
              var name := s[GreedyMatch(s).value.0..GreedyMatch(s).value.1];
              name !in env || env[name] == "" ==> r == Failure(ArgumentException(name))
    ensures !HasCandidate(s) ==> r == Success(s)
    decreases Count(s, '%')
  {
    match GreedyMatch(s)
    case None => Success(s)
    case Some((p, q)) =>
      var name := s[p..q];
      if name !in env || env[name] == "" then Failure(ArgumentException(name))
      else
        GreedyStepLowersPercentCount(s, p, q, env[name]);
        ExpandGreedy(ReplaceAll(s, "%" + name + "%", env[name]), env)
  }

  /** A successful expansion that ends on one line holds fewer than two `%`. */
  lemma ExpandedOneLineHasFewerThanTwoPercents(s: string, env: map<string, string>)
    requires ValuesFreeOf(env, '%')
    requires ExpandGreedy(s, env).Success?
    requires '\n' !in ExpandGreedy(s, env).value
    ensures Count(ExpandGreedy(s, env).value, '%') < 2
  {
    NoCandidateOnOneLine(ExpandGreedy(s, env).value);
  }

  /**
   * The separator step: `s` itself when it already ends with the
   * separator, otherwise `s` followed by one separator.
   */
  function WithSeparator(s: string): (r: string)
    ensures EndsWith(r, DirectorySeparatorChar)
    ensures |s| <= |r| <= |s| + 1 && r[..|s|] == s
    ensures EndsWith(s, DirectorySeparatorChar) ==> r == s
  {
    if !EndsWith(s, DirectorySeparatorChar) then s + [DirectorySeparatorChar] else s
  }

  /** Adding the separator twice is the same as adding it once. */
  lemma WithSeparatorIdempotent(s: string)
    ensures WithSeparator(WithSeparator(s)) == WithSeparator(s)
  {
  }

  /** The result `NormalizarRuta(ruta, agregarSeparador)` returns or raises. */
  function Normalize(ruta: string, agregarSeparador: bool, env: map<string, string>): (r: Result<string, PathError>)
    requires ValuesFreeOf(env, '%')
    ensures ruta == "" ==> r == Success("")
    ensures ruta != "" && r.Success? && agregarSeparador ==> EndsWith(r.value, DirectorySeparatorChar)
    ensures r.Failure? ==> r.error.variable !in env || env[r.error.variable] == ""
  {
    if ruta == "" then Success(ruta)
    else match ExpandGreedy(ruta, env)
      case Failure(e) => Failure(e)
      case Success(t) => Success(if agregarSeparador then WithSeparator(t) else t)
  }

  /**
   * `NormalizarRuta(ruta, agregarSeparador)`: an empty path is returned as
   * it is; otherwise `%...%` references are expanded (raising for an
   * undefined or empty variable) and the separator is appended on request.
   */
  method NormalizarRuta(ruta: string, agregarSeparador: bool, env: map<string, string>)
    returns (r: Result<string, PathError>)
    requires ValuesFreeOf(env, '%')
    ensures r == Normalize(ruta, agregarSeparador, env)
  {
    if ruta == "" {
      return Success(ruta);
    }
    var s := ruta;
    while GreedyMatch(s).Some?
      invariant ExpandGreedy(s, env) == ExpandGreedy(ruta, env)
      decreases Count(s, '%')
    {
      var (p, q) := GreedyMatch(s).value;
      var name := s[p..q];
      if name !in env || env[name] == "" {
        return Failure(ArgumentException(name));
      }
      var valvar := env[name];
      GreedyStepLowersPercentCount(s, p, q, valvar);
      s := ReplaceAll(s, "%" + name + "%", valvar);
    }
    r := Success(if agregarSeparador then WithSeparator(s) else s);
  }

  /** `NormalizarRuta(ruta)`: the separator is always requested. */
  method NormalizarRutaConSeparador(ruta: string, env: map<string, string>)
    returns (r: Result<string, PathError>)
    requires ValuesFreeOf(env, '%')
    ensures r == Normalize(ruta, true, env)
  {
    r := NormalizarRuta(ruta, true, env);
  }

  /** With and without the separator the expansion is the same; only the last step differs. */
  lemma SeparatorIsTheOnlyDifference(ruta: string, env: map<string, string>)
    requires ValuesFreeOf(env, '%')
    ensures Normalize(ruta, true, env).Success? <==> Normalize(ruta, false, env).Success?
    ensures Normalize(ruta, true, env).Failure? ==> Normalize(ruta, true, env) == Normalize(ruta, false, env)
    ensures ruta != "" && Normalize(ruta, true, env).Success? ==>
              Normalize(ruta, true, env).value == WithSeparator(Normalize(ruta, false, env).value)
  {
  }

  lemma NoPercentNoCandidate(s: string)
    requires '%' !in s
    ensures !HasCandidate(s)
  {
  }

  /** On one line the match runs from just after the first `%` to the last `%`. */
  lemma GreedyMatchBetween(s: string, f: nat, l: nat)
    requires '\n' !in s
    requires f < l < |s| && s[f] == '%' && s[l] == '%'
    requires '%' !in s[..f] && '%' !in s[l + 1..]
    ensures GreedyMatch(s) == Some((f + 1, l))
  {
    GreedyMatchOnOneLine(s);
    TwoOccurrences(s, '%');
  }

  /**
   * On one line, when the name between the first and the last `%` is
   * undefined or empty, the expansion raises for that name, whatever text
   * surrounds the reference.
   */
  lemma GreedyFailsOnUndefined(s: string, f: nat, l: nat, env: map<string, string>)
    requires ValuesFreeOf(env, '%')
    requires '\n' !in s
    requires f < l < |s| && s[f] == '%' && s[l] == '%'
    requires '%' !in s[..f] && '%' !in s[l + 1..]
    requires s[f + 1..l] !in env || env[s[f + 1..l]] == ""
    ensures ExpandGreedy(s, env) == Failure(ArgumentException(s[f + 1..l]))
  {
    GreedyMatchBetween(s, f, l);
  }

  /** So `NormalizarRuta` raises for such a path, with or without the separator. */
  lemma NormalizeFailsOnUndefined(ruta: string, f: nat, l: nat, agregarSeparador: bool, env: map<string, string>)
    requires ValuesFreeOf(env, '%')
    requires '\n' !in ruta
    requires f < l < |ruta| && ruta[f] == '%' && ruta[l] == '%'
    requires '%' !in ruta[..f] && '%' !in ruta[l + 1..]
    requires ruta[f + 1..l] !in env || env[ruta[f + 1..l]] == ""
    ensures Normalize(ruta, agregarSeparador, env) == Failure(ArgumentException(ruta[f + 1..l]))
  {
    GreedyFailsOnUndefined(ruta, f, l, env);
  }

  /**
   * On one line, when the name between the first and the last `%` is
   * defined and non-empty, one pass puts its value in place of the
   * reference and keeps the text on either side.
   */
  lemma GreedyStepReplacesReference(s: string, f: nat, l: nat, env: map<string, string>)
    requires ValuesFreeOf(env, '%')
    requires '\n' !in s
    requires f < l < |s| && s[f] == '%' && s[l] == '%'
    requires '%' !in s[..f] && '%' !in s[l + 1..]
    requires s[f + 1..l] in env && env[s[f + 1..l]] != ""
    ensures ExpandGreedy(s, env) == ExpandGreedy(s[..f] + env[s[f + 1..l]] + s[l + 1..], env)
  {
    var name := s[f + 1..l];
    assert ExpandGreedy(s, env) == ExpandGreedy(ReplaceAll(s, "%" + name + "%", env[name]), env) by {
      GreedyMatchBetween(s, f, l);
    }
    ReplaceReference(s, f, l, env[name]);
  }

  /** Replacing the only `%name%` span, from the first `%` to the last, keeps the text on either side. */
  lemma ReplaceReference(s: string, f: nat, l: nat, value: string)
    requires f < l < |s| && s[f] == '%' && s[l] == '%'
    requires '%' !in s[..f] && '%' !in s[l + 1..]
    ensures ReplaceAll(s, "%" + s[f + 1..l] + "%", value) == s[..f] + value + s[l + 1..]
  {
    var pat := "%" + s[f + 1..l] + "%";
    assert f + |pat| == l + 1;
    assert OccursAt(s, pat, f) by {
      SliceAround(s, f + 1, l);
    }
    assert forall j :: 0 <= j < f ==> !OccursAt(s, pat, j) by {
      AbsentFirstCharacterBefore(s, pat, f);
    }
    assert ReplaceAll(s, pat, value) == s[..f] + value + ReplaceAll(s[l + 1..], pat, value) by {
      ReplaceAllAtFirstOccurrence(s, pat, value, f);
    }
    assert ReplaceAll(s[l + 1..], pat, value) == s[l + 1..] by {
      AbsentFirstCharacter(s[l + 1..], pat);
      ReplaceAllWithoutOccurrence(s[l + 1..], pat, value);
    }
  }

  /**
   * A path made of one reference `%name%` followed by text without `%`
   * expands to the variable's value followed by that text.
   */
  lemma SingleReference(name: string, rest: string, env: map<string, string>)
    requires ValuesFreeOf(env, '%')
    requires '%' !in name && '%' !in rest && '\n' !in name && '\n' !in rest
    requires name in env && env[name] != ""
    ensures ExpandGreedy("%" + name + "%" + rest, env) == Success(env[name] + rest)
  {
    var pat := "%" + name + "%";
    var s := pat + rest;
    var l := |name| + 1;
    assert s[..0] == [] && s[l + 1..] == rest && s[l] == '%' && '\n' !in s;
    GreedyMatchBetween(s, 0, l);
    assert s[1..l] == name;
    assert s[..|pat|] == pat && s[|pat|..] == rest;
    ReplaceAllWithoutOccurrence(rest, pat, env[name]);
    NoPercentNoCandidate(env[name] + rest);
  }

  /**
   * So `NormalizarRuta` on such a path yields the value, the rest and, on
   * request, a final separator (the directory test's `%TMP%\\test_1`).
   */
  lemma NormalizeSingleReference(name: string, rest: string, agregarSeparador: bool, env: map<string, string>)
    requires ValuesFreeOf(env, '%')
    requires '%' !in name && '%' !in rest && '\n' !in name && '\n' !in rest
    requires name in env && env[name] != ""
    ensures var r := Normalize("%" + name + "%" + rest, agregarSeparador, env);
            r == Success(if agregarSeparador then WithSeparator(env[name] + rest) else env[name] + rest)
  {
    SingleReference(name, rest, env);
  }

  /**
   * The greedy pattern spans from the first `%` to the last one: in
   * `%name%` the whole of `name` is looked up, whatever `%` it holds. So
   * `%A%\\%B%` looks up the single name `A%\\%B` and raises even when `A`
   * and `B` are both defined.
   */
  lemma GreedyNameSpansEveryReference(name: string, env: map<string, string>)
    requires ValuesFreeOf(env, '%')
    requires '\n' !in name
    ensures GreedyMatch("%" + name + "%") == Some((1, |name| + 1))
    ensures name !in env || env[name] == "" ==>
              ExpandGreedy("%" + name + "%", env) == Failure(ArgumentException(name))
  {
    var s := "%" + name + "%";
    assert '\n' !in s && s[..0] == [] && s[|name| + 2..] == [];
    GreedyMatchBetween(s, 0, |name| + 1);
    assert s[1..|name| + 1] == name;
  }

  /**
   * The directory test end to end: with `name` set to a drive path
   * `letters:\d1\...\dk\last` (no final separator), normalising
   * `%name%\leaf` yields `letters:\d1\...\last\leaf\`, and that
   * folder is among the ones `CrearDirectorio` makes exist.
   */
  lemma NormalizedPathIsCreated(letters: string, dirs: seq<string>, last: string, leaf: string,
                                name: string, env: map<string, string>)
    requires ValuesFreeOf(env, '%')
    requires |letters| >= 1 && forall k :: 0 <= k < |letters| ==> IsAsciiLetter(letters[k])
    requires forall k :: 0 <= k < |dirs| ==> dirs[k] != "" && '\\' !in dirs[k] && '\n' !in dirs[k]
    requires last != "" && '\\' !in last && '\n' !in last
    requires leaf != "" && '\\' !in leaf && '\n' !in leaf && '%' !in leaf
    requires '%' !in name && '\n' !in name
    requires name in env && env[name] == letters + ":\\" + Trailing(dirs) + last
    ensures var r := Normalize("%" + name + "%" + ("\\" + leaf), true, env);
            r == Success(env[name] + ("\\" + leaf) + "\\") && r.value in DirectoriesFor(r.value)
  {
    var tmp := env[name];
    TestPathNormalized(tmp, leaf, name, env);
    TestPathCreated(letters, dirs, last, leaf);
  }

  lemma TestPathNormalized(tmp: string, leaf: string, name: string, env: map<string, string>)
    requires ValuesFreeOf(env, '%')
    requires leaf != "" && '\\' !in leaf && '\n' !in leaf && '%' !in leaf
    requires '%' !in name && '\n' !in name
    requires name in env && env[name] == tmp && tmp != ""
    ensures Normalize("%" + name + "%" + ("\\" + leaf), true, env) == Success(tmp + ("\\" + leaf) + "\\")
  {
    var rest := "\\" + leaf;
    assert '%' !in rest && '\n' !in rest;
    NormalizeSingleReference(name, rest, true, env);
    assert (tmp + rest)[|tmp + rest| - 1] == leaf[|leaf| - 1];
  }

  lemma TestPathCreated(letters: string, dirs: seq<string>, last: string, leaf: string)
    requires |letters| >= 1 && forall k :: 0 <= k < |letters| ==> IsAsciiLetter(letters[k])
    requires forall k :: 0 <= k < |dirs| ==> dirs[k] != "" && '\\' !in dirs[k] && '\n' !in dirs[k]
    requires last != "" && '\\' !in last && '\n' !in last
    requires leaf != "" && '\\' !in leaf && '\n' !in leaf
    ensures var w := letters + ":\\" + Trailing(dirs) + last + ("\\" + leaf) + "\\";
            w in DirectoriesFor(w)
  {
    var init := dirs + [last];
    var segs := init + [leaf];
    var ruta := letters + ":\\" + Trailing(segs);
    assert DirectoriesFor(ruta)[|segs| - 1] == ruta by {
      forall k | 0 <= k < |segs| ensures segs[k] != "" && '\\' !in segs[k] && '\n' !in segs[k] {
        if k < |dirs| {
          assert segs[k] == dirs[k];
        } else if k == |dirs| {
          assert segs[k] == last;
        }
      }
      CrearDirectorioCreatesThePath(letters, segs);
    }
    assert ruta == letters + ":\\" + Trailing(dirs) + last + ("\\" + leaf) + "\\" by {
      assert Trailing(segs) == Trailing(dirs) + last + "\\" + leaf + "\\" by {
        assert init[..|dirs|] == dirs;
        assert segs[..|init|] == init;
      }
      PathRegroup(letters + ":\\", Trailing(dirs), last, leaf);
    }
  }

  /** The two ways the test's path is spelled are the same string. */
  lemma PathRegroup(drive: string, middle: string, last: string, leaf: string)
    ensures drive + (middle + last + "\\" + leaf + "\\") == drive + middle + last + "\\" + leaf + "\\"
    ensures drive + middle + last + "\\" + leaf + "\\" == drive + middle + last + ("\\" + leaf) + "\\"
  {
  }
}

=== FILE: Strings.dfy ===
/**
 * The pieces of .NET string handling that the helpers rely on: counting a
 * character, ordinal `String.Replace`, `String.Split(char)` and `IndexOf(char)`.
 */
module Strings {

  /** Number of occurrences of `c` in `s`. */
  function Count(s: string, c: char): (n: nat)
    ensures n <= |s|
    ensures n == 0 <==> c !in s
  {
    if s == [] then 0 else (if s[0] == c then 1 else 0) + Count(s[1..], c)
  }

  lemma {:induction false} CountConcat(a: string, b: string, c: char)
    ensures Count(a + b, c) == Count(a, c) + Count(b, c)
  {
    if a == [] {
      assert a + b == b;
    } else {
      assert (a + b)[1..] == a[1..] + b;
      CountConcat(a[1..], b, c);
    }
  }

  /** `pat` occurs in `s` starting at index `i`. */
  predicate OccursAt(s: string, pat: string, i: int)
  {
    0 <= i && i + |pat| <= |s| && s[i..i + |pat|] == pat
  }

  /**
   * Ordinal `s.Replace(pat, rep)`: scanning left to right, every occurrence
   * of `pat` that does not overlap an occurrence already replaced is
   * replaced by `rep`. An empty `pat` is refused by .NET, so it is excluded.
   */
  function ReplaceAll(s: string, pat: string, rep: string): string
    requires pat != []
    decreases |s|
  {
    if |s| < |pat| then s
    else if s[..|pat|] == pat then rep + ReplaceAll(s[|pat|..], pat, rep)
    else [s[0]] + ReplaceAll(s[1..], pat, rep)
  }

  /** Occurrences in the tail are the occurrences in `s` shifted by one. */
  lemma OccursAtTail(s: string, pat: string, j: nat)
    requires s != []
    ensures OccursAt(s[1..], pat, j) <==> OccursAt(s, pat, j + 1)
  {
    if j + |pat| <= |s[1..]| {
      assert s[1..][j..j + |pat|] == s[j + 1..j + 1 + |pat|];
    }
  }

  /** A string in which `pat` never occurs is left as it is. */
  lemma {:induction false} ReplaceAllWithoutOccurrence(s: string, pat: string, rep: string)
    requires pat != []
    requires forall i :: !OccursAt(s, pat, i)
    ensures ReplaceAll(s, pat, rep) == s
  {
    if |s| >= |pat| {
      assert !OccursAt(s, pat, 0);
      forall i: nat ensures !OccursAt(s[1..], pat, i) {
        OccursAtTail(s, pat, i);
      }
      ReplaceAllWithoutOccurrence(s[1..], pat, rep);
    }
  }

  /**
   * The first occurrence of `pat` is replaced, everything before it is
   * kept, and the scan resumes right after it.
   */
  lemma {:induction false} ReplaceAllAtFirstOccurrence(s: string, pat: string, rep: string, i: nat)
    requires pat != []
    requires OccursAt(s, pat, i)
    requires forall j :: 0 <= j < i ==> !OccursAt(s, pat, j)
    ensures ReplaceAll(s, pat, rep) == s[..i] + rep + ReplaceAll(s[i + |pat|..], pat, rep)
    decreases i, 1
  {
    if i == 0 {
      ReplaceAllHit(s, pat, rep);
    } else {
      ReplaceAllAtLaterOccurrence(s, pat, rep, i);
    }
  }

  /** The case of a first occurrence past the start: the first character is kept and the tail is scanned. */
  lemma {:induction false} ReplaceAllAtLaterOccurrence(s: string, pat: string, rep: string, i: nat)
    requires pat != [] && 0 < i
    requires OccursAt(s, pat, i)
    requires forall j :: 0 <= j < i ==> !OccursAt(s, pat, j)
    ensures ReplaceAll(s, pat, rep) == s[..i] + rep + ReplaceAll(s[i + |pat|..], pat, rep)
    decreases i, 0
  {
    var t := s[1..];
    assert ReplaceAll(t, pat, rep) == t[..i - 1] + rep + ReplaceAll(t[i - 1 + |pat|..], pat, rep) by {
      FirstOccurrenceInTail(s, pat, i);
      ReplaceAllAtFirstOccurrence(t, pat, rep, i - 1);
    }
    assert !OccursAt(s, pat, 0);
    ReplaceAllShifted(s, pat, rep, i);
  }

  /** The step of the induction: what holds for the tail, shifted by the kept first character. */
  lemma ReplaceAllShifted(s: string, pat: string, rep: string, i: nat)
    requires pat != [] && 0 < i && i + |pat| <= |s|
    requires !OccursAt(s, pat, 0)
    requires ReplaceAll(s[1..], pat, rep) == s[1..][..i - 1] + rep + ReplaceAll(s[1..][i - 1 + |pat|..], pat, rep)
    ensures ReplaceAll(s, pat, rep) == s[..i] + rep + ReplaceAll(s[i + |pat|..], pat, rep)
  {
    var t := s[1..];
    var tail := ReplaceAll(s[i + |pat|..], pat, rep);
    assert ReplaceAll(t, pat, rep) == t[..i - 1] + rep + tail by {
      assert t[i - 1 + |pat|..] == s[i + |pat|..];
    }
    assert ReplaceAll(s, pat, rep) == [s[0]] + ReplaceAll(t, pat, rep) by {
      ReplaceAllSkip(s, pat, rep);
    }
    assert [s[0]] + t[..i - 1] == s[..i];
    PrependToConcat(s[0], t[..i - 1], rep, tail);
  }

  /** The first occurrence at `i > 0` is the first occurrence at `i - 1` of the tail. */
  lemma FirstOccurrenceInTail(s: string, pat: string, i: nat)
    requires 0 < i && OccursAt(s, pat, i)
    requires forall j :: 0 <= j < i ==> !OccursAt(s, pat, j)
    ensures OccursAt(s[1..], pat, i - 1)
    ensures forall j :: 0 <= j < i - 1 ==> !OccursAt(s[1..], pat, j)
  {
    OccursAtTail(s, pat, i - 1);
    forall j | 0 <= j < i - 1 ensures !OccursAt(s[1..], pat, j) {
      OccursAtTail(s, pat, j);
    }
  }

  lemma PrependToConcat(x: char, a: string, b: string, c: string)
    ensures [x] + (a + b + c) == ([x] + a) + b + c
  {
  }

  /** Where `pat` starts `s`, it is replaced and the scan resumes after it. */
  lemma ReplaceAllHit(s: string, pat: string, rep: string)
    requires pat != [] && OccursAt(s, pat, 0)
    ensures ReplaceAll(s, pat, rep) == s[..0] + rep + ReplaceAll(s[0 + |pat|..], pat, rep)
  {
    assert s[..|pat|] == pat;
    assert s[..0] + rep == rep;
  }

  /** Where `pat` does not start `s`, the first character is kept. */
  lemma ReplaceAllSkip(s: string, pat: string, rep: string)
    requires pat != [] && |s| >= |pat|
    requires !OccursAt(s, pat, 0)
    ensures ReplaceAll(s, pat, rep) == [s[0]] + ReplaceAll(s[1..], pat, rep)
  {
  }

  /** Where `pat` starts `s`, the counts split at the end of the pattern. */
  lemma CountAtHit(s: string, pat: string, rep: string, c: char)
    requires pat != [] && |s| >= |pat| && s[..|pat|] == pat
    ensures Count(ReplaceAll(s, pat, rep), c) == Count(rep, c) + Count(ReplaceAll(s[|pat|..], pat, rep), c)
    ensures Count(s, c) == Count(pat, c) + Count(s[|pat|..], c)
  {
    CountConcat(rep, ReplaceAll(s[|pat|..], pat, rep), c);
    assert s == pat + s[|pat|..];
    CountConcat(pat, s[|pat|..], c);
  }

  /** Where `pat` does not start `s`, the counts split after the first character. */
  lemma CountAtSkip(s: string, pat: string, rep: string, c: char)
    requires pat != [] && |s| >= |pat| && s[..|pat|] != pat
    ensures Count(ReplaceAll(s, pat, rep), c) == Count([s[0]], c) + Count(ReplaceAll(s[1..], pat, rep), c)
    ensures Count(s, c) == Count([s[0]], c) + Count(s[1..], c)
  {
    CountConcat([s[0]], ReplaceAll(s[1..], pat, rep), c);
    assert s == [s[0]] + s[1..];
    CountConcat([s[0]], s[1..], c);
  }

  /** Replacing by something with no more `c` than the pattern never adds a `c`. */
  lemma {:induction false} ReplaceAllCountNotAbove(s: string, pat: string, rep: string, c: char)
    requires pat != []
    requires Count(rep, c) <= Count(pat, c)
    ensures Count(ReplaceAll(s, pat, rep), c) <= Count(s, c)
    decreases |s|
  {
    if |s| < |pat| {
    } else if s[..|pat|] == pat {
      ReplaceAllCountNotAbove(s[|pat|..], pat, rep, c);
      CountAtHit(s, pat, rep, c);
    } else {
      ReplaceAllCountNotAbove(s[1..], pat, rep, c);
      CountAtSkip(s, pat, rep, c);
    }
  }

  /**
   * When `pat` occurs at all and `rep` holds strictly fewer `c` than `pat`,
   * the replacement strictly lowers the number of `c`.
   */
  lemma {:induction false} ReplaceAllCountBelow(s: string, pat: string, rep: string, c: char, i: nat)
    requires pat != []
    requires Count(rep, c) < Count(pat, c)
    requires OccursAt(s, pat, i)
    ensures Count(ReplaceAll(s, pat, rep), c) < Count(s, c)
    decreases i
  {
    if s[..|pat|] == pat {
      ReplaceAllCountNotAbove(s[|pat|..], pat, rep, c);
      CountAtHit(s, pat, rep, c);
    } else {
      assert i != 0;
      assert OccursAt(s[1..], pat, i - 1) by {
        assert s[1..][i - 1..i - 1 + |pat|] == s[i..i + |pat|];
      }
      ReplaceAllCountBelow(s[1..], pat, rep, c, i - 1);
      CountAtSkip(s, pat, rep, c);
    }
  }

  /** `String.Join(sep, parts)`. */
  function Join(parts: seq<string>, sep: char): string
    requires |parts| >= 1
  {
    if |parts| == 1 then parts[0] else parts[0] + [sep] + Join(parts[1..], sep)
  }

  /**
   * `s.Split(sep)`: all the pieces between separators, empty ones included.
   * Joining them back gives `s`.
   */
  function Split(s: string, sep: char): (parts: seq<string>)
    ensures |parts| >= 1
    ensures forall k :: 0 <= k < |parts| ==> sep !in parts[k]
    ensures Join(parts, sep) == s
    decreases |s|
  {
    if s == [] then [""]
    else
      var rest := Split(s[1..], sep);
      if s[0] == sep then
        assert ([""] + rest)[1..] == rest;
        [""] + rest
      else
        assert |rest| > 1 ==> Join(rest, sep) == rest[0] + [sep] + Join(rest[1..], sep);
        assert ([[s[0]] + rest[0]] + rest[1..])[1..] == rest[1..];
        [[s[0]] + rest[0]] + rest[1..]
  }

  lemma {:induction false} SplitSeparatorFree(a: string, t: string, sep: char)
    requires sep !in a
    ensures Split(a + t, sep) == [a + Split(t, sep)[0]] + Split(t, sep)[1..]
    decreases |a|
  {
    if a == [] {
      assert a + t == t;
      assert a + Split(t, sep)[0] == Split(t, sep)[0];
    } else {
      assert (a + t)[1..] == a[1..] + t;
      SplitSeparatorFree(a[1..], t, sep);
      assert [a[0]] + (a[1..] + Split(t, sep)[0]) == a + Split(t, sep)[0];
    }
  }

  /** A leading separator yields an empty first piece. */
  lemma SplitAtSeparator(t: string, sep: char)
    ensures Split([sep] + t, sep) == [""] + Split(t, sep)
  {
    assert ([sep] + t)[1..] == t;
  }

  /** Splitting what was joined from separator-free parts gives the parts back. */
  lemma {:induction false} SplitJoin(parts: seq<string>, sep: char)
    requires |parts| >= 1
    requires forall k :: 0 <= k < |parts| ==> sep !in parts[k]
    ensures Split(Join(parts, sep), sep) == parts
    decreases |parts|
  {
    if |parts| == 1 {
      SplitSeparatorFree(parts[0], [], sep);
      assert parts[0] + [] == parts[0];
    } else {
      var rest := Join(parts[1..], sep);
      var tail := [sep] + rest;
      var st := Split(tail, sep);
      assert st[0] == "" && st[1..] == parts[1..] by {
        SplitJoin(parts[1..], sep);
        SplitAtSeparator(rest, sep);
      }
      assert Split(parts[0] + tail, sep) == [parts[0] + ""] + parts[1..] by {
        SplitSeparatorFree(parts[0], tail, sep);
      }
      assert Join(parts, sep) == parts[0] + tail;
      assert parts[0] + "" == parts[0];
      assert [parts[0]] + parts[1..] == parts;
    }
  }

  /** `s.IndexOf(c)`: the first index holding `c`, or -1. */
  function IndexOf(s: string, c: char): (i: int)
    ensures -1 <= i < |s|
    ensures i == -1 <==> c !in s
    ensures 0 <= i ==> s[i] == c && c !in s[..i]
  {
    if s == [] then -1
    else if s[0] == c then 0
    else
      var j := IndexOf(s[1..], c);
      if j == -1 then -1
      else
        assert s[..j + 1] == [s[0]] + s[1..][..j];
        j + 1
  }

  /** `s.EndsWith(c.ToString())`. */
  predicate EndsWith(s: string, c: char)
  {
    |s| > 0 && s[|s| - 1] == c
  }

  /** A pattern whose first character `s` lacks occurs nowhere in `s`. */
  lemma AbsentFirstCharacter(s: string, pat: string)
    requires pat != [] && pat[0] !in s
    ensures forall i :: !OccursAt(s, pat, i)
  {
  }

  /** A pattern whose first character is absent from `s[..i]` occurs nowhere before `i`. */
  lemma AbsentFirstCharacterBefore(s: string, pat: string, i: nat)
    requires pat != [] && i <= |s| && pat[0] !in s[..i]
    ensures forall j :: 0 <= j < i ==> !OccursAt(s, pat, j)
  {
    forall j | 0 <= j < i
      ensures !OccursAt(s, pat, j)
    {
      assert s[j] == s[..i][j];
    }
  }

  /** `s[p - 1..q + 1]` is `s[p..q]` with the characters on either side. */
  lemma SliceAround(s: string, p: nat, q: nat)
    requires 0 < p <= q < |s|
    ensures s[p - 1..q + 1] == [s[p - 1]] + s[p..q] + [s[q]]
  {
    assert s[p - 1..q + 1] == s[p - 1..p] + s[p..q] + s[q..q + 1];
  }

  /** Two occurrences of `c` make a count of at least two, and conversely. */
  lemma {:induction false} TwoOccurrences(s: string, c: char)
    ensures Count(s, c) >= 2 <==> exists i, j :: 0 <= i < j < |s| && s[i] == c && s[j] == c
  {
    if s != [] {
      TwoOccurrences(s[1..], c);
      if Count(s, c) >= 2 {
        if s[0] == c {
          var j :| 0 <= j < |s[1..]| && s[1..][j] == c;
          assert s[0] == c && s[j + 1] == c;
        } else {
          var i, j :| 0 <= i < j < |s[1..]| && s[1..][i] == c && s[1..][j] == c;
          assert s[i + 1] == c && s[j + 1] == c;
        }
      }
      if exists i, j :: 0 <= i < j < |s| && s[i] == c && s[j] == c {
        var i, j :| 0 <= i < j < |s| && s[i] == c && s[j] == c;
        if i == 0 {
          assert s[1..][j - 1] == c;
        } else {
          assert s[1..][i - 1] == c && s[1..][j - 1] == c;
        }
      }
    }
  }

  /** Every value of the environment is free of `c`. */
  predicate ValuesFreeOf(env: map<string, string>, c: char)
  {
    forall name :: name in env ==> c !in env[name]
  }
}

=== FILE: TablaConsolaHelper.dfy ===
/**
 * TablaConsolaHelper: how a data table is shaped into a console table and
 * logged. Cells are modelled by their text; the rendering of the console
 * table itself is represented by its header and rows.
 */
module TablaConsolaHelper {

  import opened Wrappers

  /** A `DataRow`: its `RowError` and its `ItemArray`. */
  datatype DataRow = DataRow(rowError: string, itemArray: seq<string>)

  /** A `DataTable`: its names, its column names in order and its rows in order. */
  datatype DataTable = DataTable(namespace: string, tableName: string, columns: seq<string>, rows: seq<DataRow>)

  /** A `DataRow` of a table holds one item per column of that table. */
  predicate WellFormed(dataTable: DataTable)
  {
    forall j :: 0 <= j < |dataTable.rows| ==> |dataTable.rows[j].itemArray| == |dataTable.columns|
  }

  /** Every table of a data set is well formed. */
  predicate AllWellFormed(tables: seq<DataTable>)
  {
    forall k :: 0 <= k < |tables| ==> WellFormed(tables[k])
  }

  /**
   * Why the console table raises: `AddRow` refuses a row when the table has
   * no columns or the row's width differs, and `ToMinimalString` cannot
   * format a table without columns.
   */
  datatype TableError = NoColumns | WidthMismatch | NothingToFormat

  /** A `DataSet`: its tables in order. */
  datatype DataSet = DataSet(tables: seq<DataTable>)

  /** What is written to the log: a text line, a rendered table, or the "rows shown" line. */
  datatype LogLine =
    | Info(text: string)
    | Rendered(header: seq<string>, rows: seq<seq<string>>)
    | RowsShown(shown: int, total: int)

  /** The rule logged after every table. */
  const Rule := "########################################################"

  /** The row counter starts at 1 and the copy stops once it reaches this value. */
  const CounterLimit := 10

  /** A `ConsoleTable`: a header and the rows added so far. */
  class ConsoleTable {
    var Columns: seq<string>
    var Rows: seq<seq<string>>

    constructor (columns: seq<string>)
      ensures Columns == columns && Rows == []
    {
      Columns := columns;
      Rows := [];
    }

    /** Appends a row of the header's width; refuses one when there are no columns or the width differs. */
    method AddRow(values: seq<string>) returns (r: Outcome<TableError>)
      modifies this
      ensures Columns == old(Columns)
      ensures |Columns| == 0 ==> r == Fail(NoColumns) && Rows == old(Rows)
      ensures |Columns| != 0 && |values| != |Columns| ==> r == Fail(WidthMismatch) && Rows == old(Rows)
      ensures |Columns| != 0 && |values| == |Columns| ==> r == Pass && Rows == old(Rows) + [values]
    {
      if |Columns| == 0 {
        return Fail(NoColumns);
      }
      if |values| != |Columns| {
        return Fail(WidthMismatch);
      }
      Rows := Rows + [values];
      r := Pass;
    }

    /** Whether `ToMinimalString` succeeds: it raises when there are no columns to format. */
    method ToMinimalString() returns (r: Outcome<TableError>)
      ensures r.Fail? <==> |Columns| == 0
      ensures r.Fail? ==> r.error == NothingToFormat
    {
      if |Columns| == 0 {
        return Fail(NothingToFormat);
      }
      r := Pass;
    }
  }

  function Min(a: int, b: int): int
  {
    if a <= b then a else b
  }

  /** The header: an `ERROR` column first when row errors are included, then the columns in order. */
  function Header(columns: seq<string>, incluirRowError: bool): seq<string>
  {
    (if incluirRowError then ["ERROR"] else []) + columns
  }

  /** The cells shown for a row: its error first when row errors are included, then its items. */
  function RowValues(dr: DataRow, incluirRowError: bool): seq<string>
  {
    (if incluirRowError then [dr.rowError] else []) + dr.itemArray
  }

  /** The rows shown: the first nine rows at most, in order. */
  function ShownRows(rows: seq<DataRow>, incluirRowError: bool): seq<seq<string>>
  {
    var n := Min(CounterLimit - 1, |rows|);
    seq(n, j requires 0 <= j < n => RowValues(rows[j], incluirRowError))
  }

  /**
   * The three lines `ImprimirDataTable(dataTable, incluirRowError)` logs.
   * With an empty header it raises instead: the first row is refused, or,
   * when there is no row, the table cannot be formatted.
   */
  function TableLog(dataTable: DataTable, incluirRowError: bool): Result<seq<LogLine>, TableError>
    requires WellFormed(dataTable)
  {
    var header := Header(dataTable.columns, incluirRowError);
    var shown := ShownRows(dataTable.rows, incluirRowError);
    if header == [] then Failure(if shown != [] then NoColumns else NothingToFormat)
    else Success([Rendered(header, shown), RowsShown(|shown|, |dataTable.rows|), Info(Rule)])
  }

  /**
   * A table fails to print exactly when it has no columns and row errors
   * are not included: a row is refused when there is one, otherwise the
   * table cannot be formatted.
   */
  lemma TableLogFailsOnlyWithoutColumns(dataTable: DataTable, incluirRowError: bool)
    requires WellFormed(dataTable)
    ensures TableLog(dataTable, incluirRowError).Failure? <==> !incluirRowError && dataTable.columns == []
    ensures TableLog(dataTable, incluirRowError).Failure? ==>
              TableLog(dataTable, incluirRowError).error == (if dataTable.rows != [] then NoColumns else NothingToFormat)
  {
    if dataTable.rows != [] {
      assert ShownRows(dataTable.rows, incluirRowError)[0] == RowValues(dataTable.rows[0], incluirRowError);
    }
  }

  /**
   * The count reported is min(9, number of rows), never more than the
   * rows there are, and the rows shown are the first ones in their order.
   */
  lemma ShownRowsAreTheFirstNine(rows: seq<DataRow>, incluirRowError: bool)
    ensures |ShownRows(rows, incluirRowError)| == Min(9, |rows|) <= |rows|
    ensures |rows| <= 9 ==> |ShownRows(rows, incluirRowError)| == |rows|
    ensures forall j :: 0 <= j < |ShownRows(rows, incluirRowError)| ==>
              ShownRows(rows, incluirRowError)[j] == RowValues(rows[j], incluirRowError)
  {
  }

  /** Including row errors adds exactly one leading cell to the header and to every row shown. */
  lemma RowErrorIsALeadingColumn(dataTable: DataTable)
    ensures Header(dataTable.columns, true) == ["ERROR"] + Header(dataTable.columns, false)
    ensures |ShownRows(dataTable.rows, true)| == |ShownRows(dataTable.rows, false)|
    ensures forall j :: 0 <= j < |ShownRows(dataTable.rows, true)| ==>
              ShownRows(dataTable.rows, true)[j] == [dataTable.rows[j].rowError] + ShownRows(dataTable.rows, false)[j]
  {
  }

  /**
   * `ImprimirDataTable(dataTable, incluirRowError)`: builds the header, copies
   * rows while the counter is below 10, and logs the table, how many rows
   * were shown out of how many, and a rule.
   */
  method ImprimirDataTable(dataTable: DataTable, incluirRowError: bool) returns (log: Result<seq<LogLine>, TableError>)
    requires WellFormed(dataTable)
    ensures log == TableLog(dataTable, incluirRowError)
  {
    var columnas: seq<string> := [];
    if incluirRowError {
      columnas := columnas + ["ERROR"];
    }
    for c := 0 to |dataTable.columns|
      invariant columnas == Header(dataTable.columns[..c], incluirRowError)
    {
      columnas := columnas + [dataTable.columns[c]];
    }
    assert dataTable.columns[..|dataTable.columns|] == dataTable.columns;
    var ct := new ConsoleTable(columnas);
    var i := 1;
    var n := 0;
    while n < |dataTable.rows|
      invariant 0 <= n <= |dataTable.rows| && i == n + 1 && i <= CounterLimit
      invariant ct.Columns == Header(dataTable.columns, incluirRowError)
      invariant |ct.Rows| == n
      invariant forall j :: 0 <= j < n ==> ct.Rows[j] == RowValues(dataTable.rows[j], incluirRowError)
      invariant n > 0 ==> ct.Columns != []
    {
      if i >= CounterLimit {
        break;
      }
      var dr := dataTable.rows[n];
      var valores: seq<string> := [];
      if incluirRowError {
        valores := valores + [dr.rowError];
      }
      valores := valores + dr.itemArray;
      var added := ct.AddRow(valores);
      if added.Fail? {
        assert ct.Columns == [] && n == 0;
        assert ShownRows(dataTable.rows, incluirRowError) != [] by {
          assert |ShownRows(dataTable.rows, incluirRowError)| == Min(CounterLimit - 1, |dataTable.rows|);
        }
        return Failure(added.error);
      }
      i := i + 1;
      n := n + 1;
    }
    assert n == Min(CounterLimit - 1, |dataTable.rows|);
    assert ct.Rows == ShownRows(dataTable.rows, incluirRowError);
    var formatted := ct.ToMinimalString();
    if formatted.Fail? {
      return Failure(formatted.error);
    }
    log := Success([Rendered(ct.Columns, ct.Rows), RowsShown(i - 1, |dataTable.rows|), Info(Rule)]);
  }

  /** `ImprimirDataTable(dataTable)`: row errors are not included. */
  method ImprimirDataTableSinErrores(dataTable: DataTable) returns (log: Result<seq<LogLine>, TableError>)
    requires WellFormed(dataTable)
    ensures log == TableLog(dataTable, false)
  {
    log := ImprimirDataTable(dataTable, false);
  }

  /** The line logged before each table of a data set. */
  function TableTitle(dataTable: DataTable): string
  {
    "[" + dataTable.namespace + "." + dataTable.tableName + "]"
  }

  /** What printing a data set leaves: the lines logged, and whether it completed or raised. */
  datatype Printout = Printout(log: seq<LogLine>, outcome: Outcome<TableError>)

  /**
   * What printing the tables in order logs: each table's title and then its
   * lines, until a table raises; that table's title is the last line logged.
   */
  function DataSetLog(tables: seq<DataTable>, incluirRowError: bool): Printout
    requires AllWellFormed(tables)
    decreases |tables|
  {
    if tables == [] then Printout([], Pass)
    else
      var prev := DataSetLog(tables[..|tables| - 1], incluirRowError);
      var last := tables[|tables| - 1];
      if prev.outcome.Fail? then prev
      else match TableLog(last, incluirRowError)
        case Success(lines) => Printout(prev.log + [Info(TableTitle(last))] + lines, Pass)
        case Failure(e) => Printout(prev.log + [Info(TableTitle(last))], Fail(e))
  }

  /**
   * When every table prints, the data set completes and every table is
   * logged, in order, as its title followed by its own three lines.
   */
  lemma {:induction false} DataSetLogVisitsTablesInOrder(tables: seq<DataTable>, incluirRowError: bool)
    requires AllWellFormed(tables)
    requires forall k :: 0 <= k < |tables| ==> TableLog(tables[k], incluirRowError).Success?
    ensures DataSetLog(tables, incluirRowError).outcome == Pass
    ensures |DataSetLog(tables, incluirRowError).log| == 4 * |tables|
    ensures forall k :: 0 <= k < |tables| ==>
              DataSetLog(tables, incluirRowError).log[4 * k] == Info(TableTitle(tables[k])) &&
              DataSetLog(tables, incluirRowError).log[4 * k + 1..4 * k + 4] == TableLog(tables[k], incluirRowError).value
    decreases |tables|
  {
    if tables != [] {
      var init := tables[..|tables| - 1];
      DataSetLogVisitsTablesInOrder(init, incluirRowError);
      var last := tables[|tables| - 1];
      var log := DataSetLog(tables, incluirRowError).log;
      var prev := DataSetLog(init, incluirRowError).log;
      assert |TableLog(last, incluirRowError).value| == 3;
      assert log == prev + [Info(TableTitle(last))] + TableLog(last, incluirRowError).value;
      forall k | 0 <= k < |tables|
        ensures log[4 * k] == Info(TableTitle(tables[k]))
        ensures log[4 * k + 1..4 * k + 4] == TableLog(tables[k], incluirRowError).value
      {
        if k < |init| {
          assert log[4 * k] == prev[4 * k];
          assert log[4 * k + 1..4 * k + 4] == prev[4 * k + 1..4 * k + 4];
          assert tables[k] == init[k];
        }
      }
    }
  }

  /** Once a table has raised, the tables after it change nothing. */
  lemma {:induction false} DataSetFailureIsFinal(tables: seq<DataTable>, n: nat, incluirRowError: bool)
    requires AllWellFormed(tables) && n <= |tables|
    requires DataSetLog(tables[..n], incluirRowError).outcome.Fail?
    ensures DataSetLog(tables, incluirRowError) == DataSetLog(tables[..n], incluirRowError)
    decreases |tables| - n
  {
    if n < |tables| {
      var init := tables[..|tables| - 1];
      assert init[..n] == tables[..n];
      DataSetFailureIsFinal(init, n, incluirRowError);
    } else {
      assert tables[..n] == tables;
    }
  }

  /**
   * The first table that raises ends the data set: the lines of the tables
   * before it, its title, and the refusal.
   */
  lemma DataSetStopsAtFirstFailure(tables: seq<DataTable>, k: nat, incluirRowError: bool)
    requires AllWellFormed(tables) && k < |tables|
    requires forall j :: 0 <= j < k ==> TableLog(tables[j], incluirRowError).Success?
    requires TableLog(tables[k], incluirRowError).Failure?
    ensures DataSetLog(tables, incluirRowError) ==
              Printout(DataSetLog(tables[..k], incluirRowError).log + [Info(TableTitle(tables[k]))],
                       Fail(TableLog(tables[k], incluirRowError).error))
  {
    DataSetLogVisitsTablesInOrder(tables[..k], incluirRowError);
    TableLogFailsOnlyWithoutColumns(tables[k], incluirRowError);
    assert tables[..k + 1][..k] == tables[..k];
    DataSetFailureIsFinal(tables, k + 1, incluirRowError);
  }

  /** With row errors included the header is never empty, so a data set always completes. */
  lemma DataSetWithErrorsCompletes(tables: seq<DataTable>)
    requires AllWellFormed(tables)
    ensures DataSetLog(tables, true).outcome == Pass
    ensures |DataSetLog(tables, true).log| == 4 * |tables|
  {
    forall k | 0 <= k < |tables|
      ensures TableLog(tables[k], true).Success?
    {
      TableLogFailsOnlyWithoutColumns(tables[k], true);
    }
    DataSetLogVisitsTablesInOrder(tables, true);
  }

  /** Prints every table of the data set, in order, with or without row errors. */
  method ImprimirTablas(dataSet: DataSet, incluirRowError: bool) returns (p: Printout)
    requires AllWellFormed(dataSet.tables)
    ensures p == DataSetLog(dataSet.tables, incluirRowError)
  {
    var tables := dataSet.tables;
    var log: seq<LogLine> := [];
    for k := 0 to |tables|
      invariant DataSetLog(tables[..k], incluirRowError) == Printout(log, Pass)
    {
      var dt := tables[k];
      assert tables[..k + 1][..k] == tables[..k];
      log := log + [Info(TableTitle(dt))];
      var tableLog := ImprimirDataTable(dt, incluirRowError);
      if tableLog.Failure? {
        DataSetFailureIsFinal(tables, k + 1, incluirRowError);
        return Printout(log, Fail(tableLog.error));
      }
      log := log + tableLog.value;
    }
    assert tables[..|tables|] == tables;
    p := Printout(log, Pass);
  }

  /** `ImprimirDataSet`: every table, in order, without row errors. */
  method ImprimirDataSet(dataSet: DataSet) returns (log: Printout)
    requires AllWellFormed(dataSet.tables)
    ensures log == DataSetLog(dataSet.tables, false)
  {
    log := ImprimirTablas(dataSet, false);
  }

  /** `ImprimirDataSetConErrores`: every table, in order, with row errors. */
  method ImprimirDataSetConErrores(dataSet: DataSet) returns (log: Printout)
    requires AllWellFormed(dataSet.tables)
    ensures log == DataSetLog(dataSet.tables, true)
  {
    log := ImprimirTablas(dataSet, true);
  }
}

=== FILE: Wrappers.dfy ===
/** Option, Result and Outcome: a value that may be absent, and a computation that may raise. */
module Wrappers {

  datatype Option<+T> = None | Some(value: T)

  datatype Result<+R, +E> = Success(value: R) | Failure(error: E)

  /** A computation that either completes or raises `error`. */
  datatype Outcome<+E> = Pass | Fail(error: E)
}
